=== FILE: README.md ===
# HUNTER directory metadata in Dafny

This project models the directory core of the HUNTER persistent-memory file
system in Dafny. It covers two parts.

- **The circular hash table of `chash.h`.** It has `2^bits` sentinel nodes.
  Each sentinel heads a circular doubly-linked list. Nodes are integer ids,
  `next`/`prev` are maps, and ids `0 .. 2^bits-1` are the sentinels. A ghost
  sequence per bucket (`CHash.Abstracts`) ties the pointers to list contents.
- **The per-directory bookkeeping of `namei.c`.**
  - The name index: buckets of `hk_dentry_info` nodes keyed by `BKDRHash`.
  - The append-only dentry log: slot arithmetic, block registration in
    `linix`, and removal by `ino == 0`.
  - The link-count and valid-bit logic of link, unlink, rename, create and
    mkdir.

Modules:

- `kernel.dfy` (`Kernel`): `Option`, names, errno values, and 16/32-bit
  unsigned wrap-around.
- `media.dfy` (`Media`): the on-media dentry record and its logical slot.
- `chash.dfy` (`CHash`): `chash.h`.
- `dirtable.dfy` (`DirTable`): the name index, `namei.c:25-98` and `namei.c:694-708`.
- `dentrylog.dfy` (`DentryLog`): `hk_dentry_by_ix_from_blk`,
  `hk_inode_by_name`, `hk_append_dentry_innvm` and `hk_add_dentry`.
- `namei.dfy` (`Namei`): the directory operations.

Things outside the modelled code are parameters:

- `BKDRHash` and `HK_HASH_BITS` are `DirTable.Hashing`.
- `MAX_DENTRY_PER_BLK` and `sizeof(struct hk_dentry)` are `DentryLog.Geometry`.
- `HK_LINK_MAX` is `Namei.Config.linkMax`.
- The allocator results and `get_version` are `DentryLog.Alloc`.
- `hk_alloc_ino` is an `Option<Ino>`.
- The result of `hk_create_inode` is `Namei.NewInode`.
- The result of `hk_start_tx` is `tx`.

Three facts about the code shape the model:

- `hk_insert_dir_table` does not check for duplicates. `DirTable.Insert`
  inserts at the head of the bucket regardless, so the newest node for a
  name shadows older ones.
- `hk_append_dentry_innvm` ignores the status of `hk_insert_dir_table`. A
  failed node allocation therefore leaves a record that is written but not
  indexed, and the append still returns 0. The Findings table below has this
  case. Rename also keeps the dentries of earlier steps when a later step
  fails.
- `Namei.ParentLinkChange` states, independently of the code, how POSIX
  changes the parents' link counts when a directory moves.
  `Namei.DeltasMatchParentLinks` and `Namei.RenameParentLinks` prove that the
  code's `inc_link`/`dec_link` table meets that rule.

Other modelling choices:

- `TRANS_OFS_TO_ADDR` is the identity on the values that `linix` holds.
- The hash-to-bucket reduction of the `hash_*_bits` macros is taken as the
  hash modulo the bucket count.

## Model

| member | source | states |
|---|---|---|
| `CHash.Init` | chash.h:28-38 | every one of the `1 << bits` sentinels points at itself through both `next` and `prev` |
| `CHash.InitIsEmpty` | chash.h:28-38 | after init the table abstracts `2^bits` empty buckets |
| `CHash.AddHead` | chash.h:40-47 | the sentinel's `next` becomes `slot`; `slot.next` is the former head and `slot.prev` the sentinel; the former head's `prev` is `slot`; no other pointer changes |
| `CHash.AddHeadPrepends` | chash.h:40-47 | on the bucket abstraction, head insertion prepends `slot` to its bucket and leaves every other bucket unchanged |
| `CHash.Del` | chash.h:49-53 | the neighbours of `slot` are linked to each other; `slot`'s own pointers and every other node are left unchanged |
| `CHash.DelRemoves` | chash.h:49-53 | deleting the node at position `i` of a bucket removes exactly that element and keeps every other bucket |
| `CHash.Last` | chash.h:55-59 | the sentinel's `prev` is the last element of the bucket (the oldest surviving node), or the sentinel itself when the bucket is empty |
| `CHash.IsSentinel` | chash.h:61-62 | for the sentinel or a node of its bucket, true exactly when the node is not one of the bucket's elements, which is when it is the sentinel |
| `CHash.AddHeadToEmptyIsLast` | chash.h:40-47 | after inserting into an empty bucket the sentinel's `next` and `chash_last` are both the new node |
| `CHash.AddThenDelRestores` | chash.h:40-53 | head insertion followed by deletion of the same slot restores every `next`/`prev` pointer other than the slot's own |
| `CHash.ForEachPossible` | chash.h:61-65 | the walk from `table[key].next` to the sentinel visits exactly the bucket's nodes, newest first, and never a sentinel |
| `CHash.AddAllPrepends` | chash.h:40-47 | inserting distinct fresh nodes one by one leaves them in the bucket in reverse insertion order |
| `CHash.DelAllEmpties` | chash.h:49-53 | deleting every node of a bucket, in any order, leaves the empty circle |
| `CHash.InsertThenDeleteAllEmpties` | chash.h:28-53 | from a fresh table, inserting N distinct nodes into one bucket and deleting them all in any order gives `next == prev == sentinel` |
| `DirTable.FirstMatch` | namei.c:32-37 | the position of the first node whose record carries the name, or the bucket length; no earlier node matches |
| `DirTable.Search` | namei.c:25-40 | examines only the bucket of `BKDRHash(name)`; returns the first node whose record's name equals the name, or none exactly when no node of that bucket matches |
| `DirTable.SearchMissMeansAbsent` | namei.c:25-40 | under the table invariant, a miss in the one bucket means that no node of the whole table carries the name |
| `DirTable.Insert` | namei.c:42-54 | `-ENOMEM` with the table unchanged when the node cannot be allocated; otherwise a node with the name's hash and the given record at the head of its bucket, without a duplicate check |
| `DirTable.InsertAsWritten` | namei.c:42-54 | the table change of `Insert`, with a returned status that is whatever the return register held |
| `DirTable.InsertAsWrittenMisreports` | namei.c:42-54 | a successful insert can report a nonzero status although the lookup finds the new node |
| `DirTable.InsertThenSearch` | namei.c:25-54 | after an insert the lookup returns the new node, even when an older node carries the same name |
| `DirTable.InsertKeepsValid` | namei.c:42-54 | inserting a node for a record that carries the name keeps every node's hash and bucket consistent |
| `DirTable.InsertThenRemove` | namei.c:42-98 | removing a name right after inserting it gives back the original table |
| `DirTable.Update` | namei.c:56-66 | `-ENOENT` with the table unchanged when the name is absent; otherwise only the found node's record pointer changes |
| `DirTable.UpdateThenSearch` | namei.c:56-66 | after an update the lookup finds the same node pointing at the new record, and the invariant holds |
| `DirTable.Remove` | namei.c:81-98 | unlinks the first matching node of the name's bucket, at most one node, and is a no-op when the name is absent |
| `DirTable.RemoveThenSearch` | namei.c:81-98 | with unique names, removal keeps the invariant and the lookup then misses |
| `DirTable.RemoveOtherKeepsSearch` | namei.c:25-98 | removing one name leaves the lookup of every other name unchanged |
| `DirTable.Destroy` | namei.c:68-79 | every bucket ends empty, and the freed nodes are exactly the table's nodes in walk order |
| `DirTable.FreeChain` | namei.c:74-78 | unlinking and freeing one bucket's nodes frees exactly that bucket's nodes, in walk order |
| `DirTable.IsEmpty` | namei.c:694-708 | true exactly when no bucket holds a node, that is, when the node count is zero |
| `DirTable.TableFrame` | namei.c:25-98 | lookup, update and removal depend only on the names of the records, so a record's valid bit or timestamp does not affect them |
| `DentryLog.DentryAt` | namei.c:20-23 | the record's address lies at or after the block address and, for a nonzero record size, at least `ix` bytes after it |
| `DentryLog.DentryAtInverse` | namei.c:20-23 | `blk_addr + ix * sizeof(hk_dentry)` can be inverted: the offset divided by the record size is `ix`, with no remainder |
| `DentryLog.RecordsDisjoint` | namei.c:20-23 | the records of two different slots of one block do not overlap |
| `DentryLog.SlotOf` | namei.c:167-168 | log position `n` falls in block `n / MAX_DENTRY_PER_BLK` at an index below `MAX_DENTRY_PER_BLK`, and block times block size plus index gives back `n` |
| `DentryLog.SlotUnique` | namei.c:165-168 | the pair (`n / MAX_DENTRY_PER_BLK`, `n % MAX_DENTRY_PER_BLK`) is the only slot at log position `n` |
| `DentryLog.BlockFor` | namei.c:165-188 | a registered block, or any mid-block slot, reuses the `linix` address; an opening slot of an unregistered block takes the prepared layout, else the gap, and fails only when both are missing |
| `DentryLog.Append` | namei.c:125-225 | `ino == 0`: `-ENOENT` if the name is not indexed, else the record is invalidated in place and the name leaves the index, with the count unchanged. Otherwise: `-ENOSPC` with no change, or the record (ino, name length, name, `link_change`, valid) at the next slot, the count up by 1 and the block registered at its address |
| `DentryLog.AddDentry` | namei.c:230-253 | an empty name is refused with `-EINVAL` before any change; otherwise the append |
| `DentryLog.InodeByName` | namei.c:100-123 | -1 when the lookup misses; otherwise the found record and its inode number, and that record carries the name |
| `DentryLog.NoAllocMidBlock` | namei.c:165-188 | in a well-formed directory a mid-block slot's block is registered, so such an append never allocates and never fails with `-ENOSPC` |
| `DentryLog.AppendKeepsWF` | namei.c:165-225 | appending a new name keeps the invariant: records are exactly the used slots, every used block is registered, and the index is consistent |
| `DentryLog.AppendThenLookup` | namei.c:100-225 | when the index node is allocated, after a successful append the lookup returns the new inode number and slot |
| `DentryLog.AppendAsWrittenLosesName` | namei.c:222-224 | when the index node cannot be allocated, appending a name that is not indexed returns 0, yet the name still looks up as -1 |
| `DentryLog.AppendChecked` | namei.c:222-224 | with the correction: `-ENOMEM` exactly when a nonzero-ino append has its block but not its index node; every other outcome is the code's |
| `DentryLog.AppendCheckedThenLookup` | namei.c:100-225 | with the correction, every append that returns 0 leaves the name resolving to the new inode number and slot |
| `DentryLog.RemoveThenLookup` | namei.c:144-163 | removal by `ino == 0` keeps the invariant, and the name then looks up as -1 |
| `DentryLog.RemoveKeepsOtherNames` | namei.c:144-163 | removal of one name leaves every other name's lookup result unchanged |
| `Namei.Link` | namei.c:581-635 | `-EMLINK` with no change at `HK_LINK_MAX`; a failed entry add returns its error with no change; once the entry is added, nlink is incremented, the valid bit is set and the directory holds the new record, and the status is the transaction's error or 0 — so a failed transaction keeps those changes |
| `Namei.Unlink` | namei.c:637-689 | after the name's record is invalidated in place (nothing is appended), the inode is invalidated exactly when its nlink was 1, and nlink drops by 1 unless already 0 |
| `Namei.LinkThenUnlink` | namei.c:581-689 | a link followed by unlinking the new name restores the inode's link count, and the name no longer resolves |
| `Namei.LinkThenLookup` | namei.c:581-635 | when the index node is allocated, after a successful link the new name resolves to the target inode, and every directory stays well formed |
| `Namei.FlagsOk` | namei.c:739-740 | rename accepts the flag words 0 and `RENAME_NOREPLACE` and nothing else |
| `Namei.LinkDeltas` | namei.c:756-771 | `(inc_link, dec_link)` is (0,0) for a non-directory; for a directory (1,-1), (0,-1), (0,0), (-1,-1) for no target or target, across or within parents |
| `Namei.ParentLinkChange` | namei.c:756-771 | the POSIX change of the parents' link counts for moving a directory, with or without a replaced directory |
| `Namei.DeltasMatchParentLinks` | namei.c:756-806 | incrementing the new parent iff `inc_link > 0` and dropping the old parent iff `dec_link < 0` realises the POSIX change, or its sum within one parent |
| `Namei.DropTarget` | namei.c:808-833 | the replaced inode loses two links for a directory source and one otherwise, never going below 0, and is invalidated iff no link is left |
| `Namei.MoveIn` | namei.c:785-798 | when a target exists, first invalidates its name in the new parent, then appends the source's record under the new name carrying `inc_link`, each step's error returned as is; on success only the new parent's nlink changes, incremented iff `inc_link > 0`; other directories are untouched |
| `Namei.MoveOut` | namei.c:800-846 | invalidates the old name's record in place and drops it from the index; the `dec_link` argument is ignored; a failed removal returns its error with no change; otherwise the status is the rename transaction's error or 0, and in both cases the old parent's nlink drops iff `dec_link < 0`, the replaced inode loses two links for a directory source and one otherwise, never below 0, and stays valid iff links remain; no other inode changes |
| `Namei.Rename` | namei.c:710-852 | `-EINVAL` for flags other than `RENAME_NOREPLACE`; `-ENOTEMPTY` for a directory over a non-empty target; `-EMLINK` for a directory into a parent at `HK_LINK_MAX`; each with no change; the success condition is stated by `Namei.RenameStatus` |
| `Namei.RenameStatus` | namei.c:785-846 | past the three guards, rename returns 0 exactly when the appends into the new parent succeed, the removal of the old name succeeds and the rename transaction starts |
| `Namei.RenameParentNlinks` | namei.c:797-806 | on success the new parent's nlink is incremented iff `inc_link > 0`, then the old parent's is dropped iff `dec_link < 0`; together these equal the POSIX amounts |
| `Namei.RenameParentLinks` | namei.c:756-806 | on success the parents' link counts change by the POSIX amounts, modulo 2^32 |
| `Namei.RenameDropsTarget` | namei.c:808-833 | on success the replaced inode's link count and valid bit follow `DropTarget` |
| `Namei.RenameMovesName` | namei.c:776-806 | when the new name's index node is allocated, on success the new name resolves to the source inode, the old name resolves to nothing, and every directory stays well formed |
| `Namei.CreateAsWritten` | namei.c:379-429 | returns 0 when no inode number is left, and returns the stale 0 when `hk_create_inode` fails |
| `Namei.CreateAsWrittenHidesFailure` | namei.c:388-396 | with no inode number left, create returns 0 although the name still does not resolve |
| `Namei.Instantiate` | namei.c:402-412 | the new inode takes the given fields and is marked valid (`pi->valid = 1` in `hk_start_tx_for_new_inode`); every other inode and directory is unchanged |
| `Namei.Create` | namei.c:379-429 | `-ENOSPC` when no inode number is left and `hk_create_inode`'s own error when it fails; 0 only when every step succeeded |
| `Namei.CreateSuccessMeansEntry` | namei.c:379-429 | when the index node is allocated, a create that returns 0 leaves the name resolving to the new, valid inode |
| `Namei.MkdirAsWritten` | namei.c:462-471 | returns `__hk_create`'s status, and the parent's nlink is incremented whatever that status is; no other inode but the new one changes |
| `Namei.Mkdir` | namei.c:462-471 | with the correction: returns the corrected create's status; on success the parent's nlink is incremented and the new inode is a valid directory; on failure the parent is untouched; no other inode changes |
| `Namei.MkdirAsWrittenCountsFailure` | namei.c:462-471 | an empty name is refused with `-EINVAL`, yet the parent's link count goes up |
| `Namei.MkdirAsWrittenCountsFailedTx` | namei.c:462-471 | when the transaction for the new directory fails to start, mkdir returns its error and the parent's link count still goes up |
| `Namei.MkdirLinksParentOnSuccess` | namei.c:462-471 | with the correction, the parent's link count goes up by one exactly when mkdir returns 0, and is untouched otherwise |

## Left out

- `dir.c` (`hk_readdir`) is not part of this model. It only walks the name
  index to emit entries to the VFS.
- The transaction engine (`hk_start_tx`, `hk_finish_tx`, snapshots,
  `hk_commit_*change`) has no modelled effect. The result of `hk_start_tx`
  is a parameter.
- `Namei.Rename`: `hk_commit_linkchange` is taken to succeed, because its
  code is not part of this model. Its error exits are not modelled.
- The allocator and commit chain (`hk_prepare_layouts`, `hk_prepare_gap`,
  `sm_valid_data_sync`, `use_layout_for_addr`) are reduced to their
  returned addresses in `DentryLog.Alloc`.
- Cache flushes, `memunlock`/`memlock` and `memcpy_to_pmem_nocache` are
  durability and ordering on hardware, which the model does not cover.
- The record's `mtime`, the directory's `i_mtime`/`i_ctime`, and the
  inodes' `i_ctime` are left out. They are clock values that nothing in
  the modelled logic reads.
- `hk_free_data_blks` for an invalidated rename target is left out. It
  belongs to the allocator.
- The `NULL` checks on `hk_get_pi_by_ino` in `hk_link` and `hk_unlink` are
  left out. That lookup is not part of this model. Every inode the model
  names exists.
- VFS plumbing is left out: `d_instantiate`, `hk_iget`, `ihold`/`iput`,
  `hk_lookup`, `hk_get_parent`, `hk_symlink`, and the internals of
  `hk_create_inode`/`hk_init_pi`. A new inode's fields are a parameter.
  A new directory starts with an empty dentry log.
- Background delegation (`CONFIG_CMT_BACKGROUND`) is left out. The model
  follows the synchronous path.
- `CHash.Init`: `1 << bits` is computed in a C `int`, and its overflow for
  `bits >= 31` is not modelled. `Pow2` is unbounded.
- `DentryLog.InodeByName`: returns -1 as a mathematical integer. The C
  result is an `ino_t`, where -1 is `ULONG_MAX`.
- `DentryLog.Append`: 64-bit wrap-around of `blk_addr + ix * size` is not
  modelled. Addresses are unbounded.
- `DentryLog.Append`: the `-ENOSPC` result stands in for the `BUG_ON(1)`
  at `namei.c:178-179`, which in the kernel does not return to the caller.
- `Namei.LinkThenLookup`, `Namei.RenameMovesName` and
  `Namei.CreateSuccessMeansEntry` require the index node to be allocated.
  The directory operations are built on the code's `DentryLog.Append`, which
  swallows that failure (see Findings).
- `DentryLog.GeometryOk` requires `MAX_DENTRY_PER_BLK <= 2^16`, so the
  `u16` `dentry_ix` never truncates.
- `CHash.ForEachPossible` takes the bucket abstraction as a ghost
  parameter. A walk over a corrupted, non-circular list is not modelled.

## Findings

| source | as written | input that shows it | evidently intended | confidence | as-written member | corrected member |
|---|---|---|---|---|---|---|
| namei.c:42-54 | the success path of `hk_insert_dir_table` ends without `return`, so the status is undefined | any successful insert whose leftover return register is nonzero | return 0 after `hash_add_bits` | high, not executed | `DirTable.InsertAsWritten`, `DirTable.InsertAsWrittenMisreports` | `DirTable.Insert`, `DirTable.InsertThenSearch` |
| namei.c:379-396 | `err` starts as `PTR_ERR(NULL)`, which is 0. `ino == -1` and `IS_ERR(inode)` both jump to `out_err` with `err == 0` | no inode number is left, so `hk_alloc_ino` returns -1 (or `hk_create_inode` returns an `ERR_PTR`): create returns 0, and the name does not resolve | return `-ENOSPC` when no inode number is left, and `PTR_ERR(inode)` when inode creation fails | high, not executed | `Namei.CreateAsWritten`, `Namei.CreateAsWrittenHidesFailure` | `Namei.Create`, `Namei.CreateSuccessMeansEntry` |
| namei.c:462-471 | `hk_mkdir` calls `inc_nlink(dir)` whatever `__hk_create` returned | `hk_start_tx_for_new_inode` returns a negative transaction id after the entry and the inode were made: mkdir returns that error, and the parent's nlink is still incremented | increment the parent's nlink only when the directory was created | high, not executed | `Namei.MkdirAsWritten`, `Namei.MkdirAsWrittenCountsFailedTx` | `Namei.Mkdir`, `Namei.MkdirLinksParentOnSuccess` |
| namei.c:222-224 | `hk_append_dentry_innvm` discards the status of `hk_insert_dir_table` and returns 0 | the index node allocation fails while appending a name that is not indexed: the append returns 0, and the name looks up as -1 | return `-ENOMEM` when the index node cannot be allocated | high, not executed | `DentryLog.Append`, `DentryLog.AppendAsWrittenLosesName` | `DentryLog.AppendChecked`, `DentryLog.AppendCheckedThenLookup` |

=== FILE: chash.dfy ===
/** The circular hash table of chash.h: `2^bits` sentinel nodes, each the
    head of a circular doubly-linked list.

    Nodes are identified by number. Ids `0 .. 2^bits - 1` are the
    sentinels, the entry `&table[key]` of the C array; every other id
    stands for a `struct list_head` embedded somewhere else. The `next`
    and `prev` pointers are maps from id to id.

    The representation invariant is stated against a ghost abstraction:
    one sequence of node ids per bucket, in list order from the sentinel
    onward (`Abstracts`). */
module CHash {
  import opened Kernel

  type NodeId = nat

  datatype Table = Table(bits: nat, next: map<NodeId, NodeId>, prev: map<NodeId, NodeId>)

  /** Number of buckets, `1 << bits`. */
  function Size(t: Table): nat
  {
    Pow2(t.bits)
  }

  // ---------------------------------------------------------------------
  // Operations
  // ---------------------------------------------------------------------

  /** chash_init: every sentinel points at itself both ways. */
  function Init(bits: nat): (t: Table)
    ensures t.bits == bits
    ensures forall k: NodeId :: k < Pow2(bits) ==> k in t.next && t.next[k] == k
    ensures forall k: NodeId :: k < Pow2(bits) ==> k in t.prev && t.prev[k] == k
  {
    var sentinels := Below(Pow2(bits));
    Table(bits, map k | k in sentinels :: k, map k | k in sentinels :: k)
  }

  /** The ids `0 .. n - 1`: the sentinels of a table of `n` buckets. */
  function Below(n: nat): (s: set<NodeId>)
    ensures forall k: NodeId :: k in s <==> k < n
  {
    if n == 0 then {} else Below(n - 1) + {n - 1}
  }

  /** chash_add_head: splice `slot` in between sentinel `key` and the
      current head. The four pointer writes are applied in the C order,
      each reading the maps as the previous write left them. The source
      expects `slot` to be a node that is in no list; the pointer-level
      promises below hold whenever `slot` is neither the sentinel nor
      the current head. */
  function AddHead(t: Table, slot: NodeId, key: NodeId): (r: Table)
    requires key < Size(t) && key in t.next
    ensures r.bits == t.bits
    ensures r.next.Keys == t.next.Keys + {slot}
    ensures r.prev.Keys == t.prev.Keys + {slot, t.next[key]}
    ensures slot != key && slot != t.next[key] ==>
              && r.next[key] == slot
              && r.prev[slot] == key
              && r.next[slot] == t.next[key]
              && r.prev[t.next[key]] == slot
    ensures forall n | n in t.next && n != key && n != slot :: r.next[n] == t.next[n]
    ensures forall n | n in t.prev && n != slot && n != t.next[key] :: r.prev[n] == t.prev[n]
  {
    var sentinel := key;
    var next1 := t.next[slot := t.next[sentinel]];
    var prev1 := t.prev[slot := sentinel];
    var prev2 := prev1[next1[sentinel] := slot];
    var next2 := next1[sentinel := slot];
    Table(t.bits, next2, prev2)
  }

  /** chash_del: unlink `slot` through its own neighbours. The slot's own
      pointers are left as they were. */
  function Del(t: Table, slot: NodeId): (r: Table)
    requires slot in t.next && slot in t.prev
    ensures r.bits == t.bits
    ensures r.next.Keys == t.next.Keys + {t.prev[slot]}
    ensures r.prev.Keys == t.prev.Keys + {t.next[slot]}
    ensures r.next[t.prev[slot]] == t.next[slot]
    ensures r.prev[t.next[slot]] == t.prev[slot]
    ensures t.prev[slot] != slot ==> r.next[slot] == t.next[slot]
    ensures t.next[slot] != slot ==> r.prev[slot] == t.prev[slot]
    ensures forall n | n in t.next && n != t.prev[slot] :: r.next[n] == t.next[n]
    ensures forall n | n in t.prev && n != t.next[slot] :: r.prev[n] == t.prev[n]
  {
    var next1 := t.next[t.prev[slot] := t.next[slot]];
    var prev1 := t.prev[next1[slot] := t.prev[slot]];
    Table(t.bits, next1, prev1)
  }

  /** chash_last: the sentinel's `prev`. Under head-only insertion that
      is the last element of the bucket, the oldest node still in it, or
      the sentinel itself when the bucket is empty. */
  function Last(t: Table, key: NodeId): (r: NodeId)
    requires key in t.prev
    ensures forall bs | Abstracts(t, bs) && key < |bs| ::
              r == (if bs[key] == [] then key else bs[key][|bs[key]| - 1])
  {
    forall bs | Abstracts(t, bs) && key < |bs|
      ensures t.prev[key] == (if bs[key] == [] then key else bs[key][|bs[key]| - 1])
    {
      assert Ring(t, key, bs[key]);
    }
    t.prev[key]
  }

  /** chash_is_sentinal: identity with `&table[key]`. On the ring of
      `key` it tells the sentinel apart from every member of the bucket. */
  predicate IsSentinel(t: Table, key: NodeId, slot: NodeId): (r: bool)
    ensures forall bs | Abstracts(t, bs) && key < |bs| && (slot == key || slot in bs[key]) ::
              r <==> slot !in bs[key]
  {
    forall bs | Abstracts(t, bs) && key < |bs| && slot in bs[key]
      ensures slot != key
    {
      var i :| 0 <= i < |bs[key]| && bs[key][i] == slot;
    }
    slot == key
  }

  // ---------------------------------------------------------------------
  // The abstraction: one sequence of node ids per bucket
  // ---------------------------------------------------------------------

  /** The `next`/`prev` chains through sentinel `key` form the closed
      circle key -> b[0] -> ... -> b[|b|-1] -> key, in both directions. */
  ghost predicate Ring(t: Table, key: NodeId, b: seq<NodeId>)
  {
    && key in t.next && key in t.prev
    && (forall i | 0 <= i < |b| :: b[i] in t.next && b[i] in t.prev)
    && (|b| == 0 ==> t.next[key] == key && t.prev[key] == key)
    && (|b| > 0 ==>
          && t.next[key] == b[0] && t.prev[b[0]] == key
          && t.prev[key] == b[|b| - 1] && t.next[b[|b| - 1]] == key)
    && (forall i | 0 <= i < |b| - 1 :: t.next[b[i]] == b[i + 1])
    && (forall i | 0 < i < |b| :: t.prev[b[i]] == b[i - 1])
  }

  /** No node appears twice, within a bucket or across buckets. */
  ghost predicate Disjoint(bs: seq<seq<NodeId>>)
  {
    forall k1, i1, k2, i2 |
      && 0 <= k1 < |bs| && 0 <= i1 < |bs[k1]|
      && 0 <= k2 < |bs| && 0 <= i2 < |bs[k2]|
      && bs[k1][i1] == bs[k2][i2]
      :: k1 == k2 && i1 == i2
  }

  /** `bs[k]` lists the nodes of bucket `k` in list order. */
  ghost predicate Abstracts(t: Table, bs: seq<seq<NodeId>>)
  {
    && |bs| == Size(t)
    && (forall k: NodeId | k < |bs| :: k in t.next && k in t.prev)
    && (forall k | 0 <= k < |bs| :: Ring(t, k, bs[k]))
    && (forall k, i | 0 <= k < |bs| && 0 <= i < |bs[k]| :: bs[k][i] >= |bs|)
    && Disjoint(bs)
  }

  /** `slot` is an ordinary node that is in no bucket. */
  ghost predicate Fresh(bs: seq<seq<NodeId>>, slot: NodeId)
  {
    && slot >= |bs|
    && forall k, i | 0 <= k < |bs| && 0 <= i < |bs[k]| :: bs[k][i] != slot
  }

  ghost function EmptyBuckets(n: nat): (bs: seq<seq<NodeId>>)
    ensures |bs| == n && forall k | 0 <= k < n :: bs[k] == []
  {
    seq(n, _ => [])
  }

  ghost function Reverse(s: seq<NodeId>): (r: seq<NodeId>)
    ensures |r| == |s|
    ensures forall i | 0 <= i < |s| :: r[i] == s[|s| - 1 - i]
  {
    if s == [] then [] else Reverse(s[1..]) + [s[0]]
  }

  // ---------------------------------------------------------------------
  // Properties
  // ---------------------------------------------------------------------

  /** After chash_init every bucket is the empty circle. */
  lemma InitIsEmpty(bits: nat)
    ensures Abstracts(Init(bits), EmptyBuckets(Pow2(bits)))
  {
  }

  /** A ring survives any update that leaves the pointers of its sentinel
      and of its members as they were. */
  lemma RingFrame(t: Table, r: Table, key: NodeId, b: seq<NodeId>)
    requires Ring(t, key, b)
    requires key in r.next && r.next[key] == t.next[key]
    requires key in r.prev && r.prev[key] == t.prev[key]
    requires forall i | 0 <= i < |b| ::
               && b[i] in r.next && r.next[b[i]] == t.next[b[i]]
               && b[i] in r.prev && r.prev[b[i]] == t.prev[b[i]]
    ensures Ring(r, key, b)
  {
  }

  /** The members of a bucket are pairwise distinct and differ from its
      sentinel. */
  ghost predicate DistinctFrom(b: seq<NodeId>, key: NodeId)
  {
    && (forall i | 0 <= i < |b| :: b[i] != key)
    && (forall i, j | 0 <= i < j < |b| :: b[i] != b[j])
  }

  lemma BucketOf(t: Table, bs: seq<seq<NodeId>>, k: NodeId)
    requires Abstracts(t, bs) && k < |bs|
    ensures Ring(t, k, bs[k]) && DistinctFrom(bs[k], k)
  {
    forall i, j | 0 <= i < j < |bs[k]|
      ensures bs[k][i] != bs[k][j]
    {
    }
  }

  /** chash_add_head on one ring, in isolation. */
  lemma AddHeadRing(t: Table, b: seq<NodeId>, slot: NodeId, key: NodeId)
    requires key < Size(t) && Ring(t, key, b) && DistinctFrom(b, key)
    requires slot != key && forall i | 0 <= i < |b| :: b[i] != slot
    ensures Ring(AddHead(t, slot, key), key, [slot] + b)
  {
    var r := AddHead(t, slot, key);
    var b' := [slot] + b;
    var head := t.next[key];
    assert slot != head;
    if |b| > 0 {
      assert key != b[|b| - 1] && b[|b| - 1] != slot;
      assert key != head;
    }
    forall i | 0 <= i < |b'| - 1
      ensures r.next[b'[i]] == b'[i + 1]
    {
      if i > 0 {
        assert b'[i] == b[i - 1];
        assert t.next[b[i - 1]] == b[i];
      }
    }
    forall i | 0 < i < |b'|
      ensures r.prev[b'[i]] == b'[i - 1]
    {
      assert b'[i] == b[i - 1];
      if i > 1 {
        assert b[i - 1] != b[0];
        assert t.prev[b[i - 1]] == b[i - 2];
      }
    }
  }

  /** The bucket left after removing position `i`. */
  ghost function RemoveAt(b: seq<NodeId>, i: nat): (b': seq<NodeId>)
    requires i < |b|
    ensures |b'| == |b| - 1
    ensures forall j | 0 <= j < |b'| :: b'[j] == (if j < i then b[j] else b[j + 1])
  {
    b[..i] + b[i + 1..]
  }

  lemma DelRingNext(t: Table, b: seq<NodeId>, i: nat, key: NodeId)
    requires Ring(t, key, b) && DistinctFrom(b, key) && i < |b|
    ensures forall j | 0 <= j < |b| - 2 :: RemoveAt(b, i)[j] in Del(t, b[i]).next
    ensures forall j | 0 <= j < |b| - 2 :: Del(t, b[i]).next[RemoveAt(b, i)[j]] == RemoveAt(b, i)[j + 1]
  {
    var r := Del(t, b[i]);
    var b' := RemoveAt(b, i);
    var p := t.prev[b[i]];
    assert p == (if i == 0 then key else b[i - 1]);
    forall j | 0 <= j < |b'| - 1
      ensures r.next[b'[j]] == b'[j + 1]
    {
      if j + 1 < i {
        assert b[j] != p;
        assert t.next[b[j]] == b[j + 1];
      } else if j + 1 > i {
        assert b[j + 1] != p;
        assert t.next[b[j + 1]] == b[j + 2];
      }
    }
  }

  lemma DelRingPrev(t: Table, b: seq<NodeId>, i: nat, key: NodeId)
    requires Ring(t, key, b) && DistinctFrom(b, key) && i < |b|
    ensures forall j | 0 < j < |b| - 1 :: RemoveAt(b, i)[j] in Del(t, b[i]).prev
    ensures forall j | 0 < j < |b| - 1 :: Del(t, b[i]).prev[RemoveAt(b, i)[j]] == RemoveAt(b, i)[j - 1]
  {
    var r := Del(t, b[i]);
    var b' := RemoveAt(b, i);
    var n := t.next[b[i]];
    assert n == (if i + 1 < |b| then b[i + 1] else key);
    forall j | 0 < j < |b'|
      ensures r.prev[b'[j]] == b'[j - 1]
    {
      if j < i {
        assert b[j] != n;
        assert t.prev[b[j]] == b[j - 1];
      } else if j > i {
        assert b[j + 1] != n;
        assert t.prev[b[j + 1]] == b[j];
      }
    }
  }

  lemma DelRingEnds(t: Table, b: seq<NodeId>, i: nat, key: NodeId)
    requires Ring(t, key, b) && DistinctFrom(b, key) && i < |b|
    ensures key in Del(t, b[i]).next && key in Del(t, b[i]).prev
    ensures |b| == 1 ==> Del(t, b[i]).next[key] == key && Del(t, b[i]).prev[key] == key
    ensures |b| > 1 ==>
              && Del(t, b[i]).next[key] == RemoveAt(b, i)[0]
              && Del(t, b[i]).prev[RemoveAt(b, i)[0]] == key
              && Del(t, b[i]).prev[key] == RemoveAt(b, i)[|b| - 2]
              && Del(t, b[i]).next[RemoveAt(b, i)[|b| - 2]] == key
  {
    var r := Del(t, b[i]);
    var p := t.prev[b[i]];
    var n := t.next[b[i]];
    assert p == (if i == 0 then key else b[i - 1]);
    assert n == (if i + 1 < |b| then b[i + 1] else key);
    if |b| > 1 {
      if i != 0 {
        assert key != p && b[0] != n;
      }
      if i != |b| - 1 {
        assert key != n && b[|b| - 1] != p;
      }
    }
  }

  /** chash_del on one ring, in isolation. */
  lemma DelRing(t: Table, b: seq<NodeId>, i: nat, key: NodeId)
    requires Ring(t, key, b) && DistinctFrom(b, key) && i < |b|
    ensures Ring(Del(t, b[i]), key, b[..i] + b[i + 1..])
  {
    DelRingNext(t, b, i, key);
    DelRingPrev(t, b, i, key);
    DelRingEnds(t, b, i, key);
    assert b[..i] + b[i + 1..] == RemoveAt(b, i);
  }

  lemma AddHeadOthers(t: Table, bs: seq<seq<NodeId>>, slot: NodeId, key: NodeId, k: NodeId)
    requires Abstracts(t, bs) && key < |bs| && Fresh(bs, slot) && k < |bs| && k != key
    ensures Ring(AddHead(t, slot, key), k, bs[k])
  {
    var r := AddHead(t, slot, key);
    var b := bs[key];
    assert Ring(t, key, b);
    assert Ring(t, k, bs[k]);
    var head := t.next[key];
    assert head == key || head == b[0];
    forall i | 0 <= i < |bs[k]|
      ensures bs[k][i] != head && bs[k][i] != key && bs[k][i] != slot
    {
      if |b| > 0 {
        assert bs[k][i] != bs[key][0];
      }
    }
    RingFrame(t, r, k, bs[k]);
  }

  lemma DisjointPrepend(bs: seq<seq<NodeId>>, key: NodeId, slot: NodeId)
    requires Disjoint(bs) && key < |bs| && Fresh(bs, slot)
    ensures Disjoint(bs[key := [slot] + bs[key]])
  {
    var bs' := bs[key := [slot] + bs[key]];
    forall k1, i1, k2, i2 |
      && 0 <= k1 < |bs'| && 0 <= i1 < |bs'[k1]|
      && 0 <= k2 < |bs'| && 0 <= i2 < |bs'[k2]|
      && bs'[k1][i1] == bs'[k2][i2]
      ensures k1 == k2 && i1 == i2
    {
      if k1 == key && i1 > 0 {
        assert bs'[k1][i1] == bs[key][i1 - 1];
      }
      if k2 == key && i2 > 0 {
        assert bs'[k2][i2] == bs[key][i2 - 1];
      }
    }
  }

  /** chash_add_head is "prepend to this bucket"; no other bucket changes. */
  lemma AddHeadPrepends(t: Table, bs: seq<seq<NodeId>>, slot: NodeId, key: NodeId)
    requires Abstracts(t, bs) && key < |bs| && Fresh(bs, slot)
    ensures Abstracts(AddHead(t, slot, key), bs[key := [slot] + bs[key]])
  {
    AddHeadRings(t, bs, bs[key := [slot] + bs[key]], slot, key);
    DisjointPrepend(bs, key, slot);
  }

  lemma AddHeadRings(t: Table, bs: seq<seq<NodeId>>, bs': seq<seq<NodeId>>, slot: NodeId, key: NodeId)
    requires Abstracts(t, bs) && key < |bs| && Fresh(bs, slot)
    requires bs' == bs[key := [slot] + bs[key]]
    ensures forall k | 0 <= k < |bs'| :: Ring(AddHead(t, slot, key), k, bs'[k])
  {
    var r := AddHead(t, slot, key);
    BucketOf(t, bs, key);
    forall k | 0 <= k < |bs'|
      ensures Ring(r, k, bs'[k])
    {
      if k != key {
        AddHeadOthers(t, bs, slot, key, k);
      } else {
        AddHeadRing(t, bs[key], slot, key);
      }
    }
  }

  lemma DelOthers(t: Table, bs: seq<seq<NodeId>>, key: NodeId, i: nat, k: NodeId)
    requires Abstracts(t, bs) && key < |bs| && i < |bs[key]| && k < |bs| && k != key
    ensures Ring(Del(t, bs[key][i]), k, bs[k])
  {
    var b := bs[key];
    var slot := b[i];
    assert Ring(t, key, b);
    assert Ring(t, k, bs[k]);
    var r := Del(t, slot);
    var p := t.prev[slot];
    var n := t.next[slot];
    assert p == (if i == 0 then key else b[i - 1]);
    assert n == (if i + 1 < |b| then b[i + 1] else key);
    forall j | 0 <= j < |bs[k]|
      ensures bs[k][j] != p && bs[k][j] != n && bs[k][j] != slot
    {
      if i > 0 { assert bs[k][j] != b[i - 1]; }
      if i + 1 < |b| { assert bs[k][j] != b[i + 1]; }
    }
    RingFrame(t, r, k, bs[k]);
  }

  lemma DisjointRemove(bs: seq<seq<NodeId>>, key: NodeId, i: nat)
    requires Disjoint(bs) && key < |bs| && i < |bs[key]|
    ensures Disjoint(bs[key := RemoveAt(bs[key], i)])
  {
    var bs' := bs[key := RemoveAt(bs[key], i)];
    forall k1, i1, k2, i2 |
      && 0 <= k1 < |bs'| && 0 <= i1 < |bs'[k1]|
      && 0 <= k2 < |bs'| && 0 <= i2 < |bs'[k2]|
      && bs'[k1][i1] == bs'[k2][i2]
      ensures k1 == k2 && i1 == i2
    {
      var j1 := if k1 == key && i1 >= i then i1 + 1 else i1;
      var j2 := if k2 == key && i2 >= i then i2 + 1 else i2;
      assert bs'[k1][i1] == bs[k1][j1];
      assert bs'[k2][i2] == bs[k2][j2];
    }
  }

  /** chash_del of the node at position `i` of bucket `key` removes exactly
      that element from the bucket; no other bucket changes. */
  lemma DelRemoves(t: Table, bs: seq<seq<NodeId>>, key: NodeId, i: nat)
    requires Abstracts(t, bs) && key < |bs| && i < |bs[key]|
    ensures Abstracts(Del(t, bs[key][i]), bs[key := bs[key][..i] + bs[key][i + 1..]])
  {
    var r := Del(t, bs[key][i]);
    var b' := bs[key][..i] + bs[key][i + 1..];
    assert b' == RemoveAt(bs[key], i);
    var bs' := bs[key := b'];
    DelRings(t, bs, bs', key, i);
    forall k, j | 0 <= k < |bs'| && 0 <= j < |bs'[k]|
      ensures bs'[k][j] >= |bs|
    {
      if k == key {
        assert bs'[k][j] == bs[key][if j < i then j else j + 1];
      }
    }
    DisjointRemove(bs, key, i);
  }

  lemma DelRings(t: Table, bs: seq<seq<NodeId>>, bs': seq<seq<NodeId>>, key: NodeId, i: nat)
    requires Abstracts(t, bs) && key < |bs| && i < |bs[key]|
    requires bs' == bs[key := bs[key][..i] + bs[key][i + 1..]]
    ensures forall k | 0 <= k < |bs'| :: Ring(Del(t, bs[key][i]), k, bs'[k])
  {
    var r := Del(t, bs[key][i]);
    BucketOf(t, bs, key);
    forall k | 0 <= k < |bs'|
      ensures Ring(r, k, bs'[k])
    {
      if k != key {
        DelOthers(t, bs, key, i, k);
      } else {
        DelRing(t, bs[key], i, key);
      }
    }
  }

  /** Inserting into an empty bucket makes the new node both the first and
      the last element, so chash_last returns it. */
  lemma AddHeadToEmptyIsLast(t: Table, bs: seq<seq<NodeId>>, slot: NodeId, key: NodeId)
    requires Abstracts(t, bs) && key < |bs| && Fresh(bs, slot) && bs[key] == []
    ensures AddHead(t, slot, key).next[key] == slot
    ensures Last(AddHead(t, slot, key), key) == slot
  {
    assert Ring(t, key, bs[key]);
  }

  /** chash_add_head followed by chash_del of the same slot restores every
      pointer except the slot's own, which chash_del leaves stale. */
  lemma AddThenDelRestores(t: Table, bs: seq<seq<NodeId>>, slot: NodeId, key: NodeId)
    requires Abstracts(t, bs) && key < |bs| && Fresh(bs, slot)
    ensures Del(AddHead(t, slot, key), slot).next - {slot} == t.next - {slot}
    ensures Del(AddHead(t, slot, key), slot).prev - {slot} == t.prev - {slot}
  {
    var b := bs[key];
    assert Ring(t, key, b);
    var head := t.next[key];
    if b == [] {
      assert head == key;
    } else {
      assert head == b[0];
      assert t.prev[b[0]] == key;
    }
    assert slot != key && slot != head;
    SpliceUndo(t, slot, key);
  }

  /** The pointer algebra behind AddThenDelRestores: splicing a node in
      after the sentinel and unlinking it again rewrites exactly the
      pointers it first changed, back to their old values. */
  lemma SpliceUndo(t: Table, slot: NodeId, key: NodeId)
    requires key < Size(t) && key in t.next && key in t.prev
    requires slot != key && slot != t.next[key]
    requires t.next[key] in t.prev && t.prev[t.next[key]] == key
    ensures Del(AddHead(t, slot, key), slot).next - {slot} == t.next - {slot}
    ensures Del(AddHead(t, slot, key), slot).prev - {slot} == t.prev - {slot}
  {
    var r := Del(AddHead(t, slot, key), slot);
    assert r.next.Keys == t.next.Keys + {slot};
    assert r.prev.Keys == t.prev.Keys + {slot};
  }

  /** chash_for_each_possible: walk from `table[key].next` until the walk
      comes back to the sentinel. It visits exactly the bucket's nodes,
      most recently added first, and never the sentinel. */
  method ForEachPossible(t: Table, key: NodeId, ghost bs: seq<seq<NodeId>>) returns (visited: seq<NodeId>)
    requires Abstracts(t, bs) && key < |bs|
    ensures visited == bs[key]
    ensures forall i | 0 <= i < |visited| :: !IsSentinel(t, key, visited[i])
  {
    ghost var b := bs[key];
    assert Ring(t, key, b);
    visited := [];
    var slot := t.next[key];
    while !IsSentinel(t, key, slot)
      invariant |visited| <= |b|
      invariant visited == b[..|visited|]
      invariant slot == (if |visited| < |b| then b[|visited|] else key)
      decreases |b| - |visited|
    {
      ghost var i := |visited|;
      assert t.next[b[i]] == (if i + 1 < |b| then b[i + 1] else key);
      visited := visited + [slot];
      assert visited == b[..i + 1];
      slot := t.next[slot];
    }
  }

  // ---------------------------------------------------------------------
  // Insert N nodes, then delete them all in any order
  // ---------------------------------------------------------------------

  /** Head-insert `nodes[0]`, then `nodes[1]`, ... into bucket `key`. */
  ghost function AddAll(t: Table, key: NodeId, nodes: seq<NodeId>): (r: Table)
    requires key < Size(t) && key in t.next && key in t.prev
    ensures r.bits == t.bits && key in r.next && key in r.prev
    ensures t.next.Keys <= r.next.Keys && t.prev.Keys <= r.prev.Keys
    ensures forall n | n in nodes :: n in r.next && n in r.prev
    decreases |nodes|
  {
    if nodes == [] then t
    else
      var r := AddAll(AddHead(t, nodes[0], key), key, nodes[1..]);
      assert forall n | n in nodes :: n == nodes[0] || n in nodes[1..];
      r
  }

  /** chash_del each node of `order` in turn. */
  ghost function DelAll(t: Table, order: seq<NodeId>): (r: Table)
    requires forall n | n in order :: n in t.next && n in t.prev
    ensures r.bits == t.bits
    ensures t.next.Keys <= r.next.Keys && t.prev.Keys <= r.prev.Keys
    decreases |order|
  {
    if order == [] then t else DelAll(Del(t, order[0]), order[1..])
  }

  ghost predicate DistinctNodes(nodes: seq<NodeId>)
  {
    forall i, j | 0 <= i < j < |nodes| :: nodes[i] != nodes[j]
  }

  lemma {:induction false} AddAllPrepends(t: Table, bs: seq<seq<NodeId>>, key: NodeId, nodes: seq<NodeId>)
    requires Abstracts(t, bs) && key < |bs|
    requires DistinctNodes(nodes)
    requires forall n | n in nodes :: Fresh(bs, n)
    ensures Abstracts(AddAll(t, key, nodes), bs[key := Reverse(nodes) + bs[key]])
    decreases |nodes|
  {
    assert Ring(t, key, bs[key]);
    if nodes == [] {
      assert Reverse(nodes) + bs[key] == bs[key];
      assert bs[key := bs[key]] == bs;
    } else {
      var slot := nodes[0];
      AddHeadPrepends(t, bs, slot, key);
      var t1 := AddHead(t, slot, key);
      var bs1 := bs[key := [slot] + bs[key]];
      TailStaysFresh(bs, key, nodes);
      AddAllPrepends(t1, bs1, key, nodes[1..]);
      PrependReverse(bs, key, nodes);
      var goal := bs[key := Reverse(nodes) + bs[key]];
      assert bs1[key := Reverse(nodes[1..]) + bs1[key]] == goal;
      assert AddAll(t, key, nodes) == AddAll(t1, key, nodes[1..]);
      assert Abstracts(AddAll(t1, key, nodes[1..]), goal);
    }
  }

  /** The nodes still to be inserted stay distinct and fresh once the first
      one is in its bucket. */
  lemma {:induction false} TailStaysFresh(bs: seq<seq<NodeId>>, key: NodeId, nodes: seq<NodeId>)
    requires key < |bs| && nodes != []
    requires DistinctNodes(nodes)
    requires forall n | n in nodes :: Fresh(bs, n)
    ensures DistinctNodes(nodes[1..])
    ensures forall n | n in nodes[1..] :: Fresh(bs[key := [nodes[0]] + bs[key]], n)
  {
    forall n | n in nodes[1..]
      ensures Fresh(bs[key := [nodes[0]] + bs[key]], n)
    {
      var j :| 0 <= j < |nodes[1..]| && nodes[1..][j] == n;
      assert nodes[j + 1] == n;
      FreshAfterPrepend(bs, key, nodes[0], n);
    }
    forall i, j | 0 <= i < j < |nodes[1..]|
      ensures nodes[1..][i] != nodes[1..][j]
    {
      assert nodes[1..][i] == nodes[i + 1] && nodes[1..][j] == nodes[j + 1];
    }
  }

  lemma {:induction false} PrependReverse(bs: seq<seq<NodeId>>, key: NodeId, nodes: seq<NodeId>)
    requires key < |bs| && nodes != []
    ensures var bs1 := bs[key := [nodes[0]] + bs[key]];
            bs1[key := Reverse(nodes[1..]) + bs1[key]] == bs[key := Reverse(nodes) + bs[key]]
  {
    ReverseStep(nodes, bs[key]);
  }

  lemma {:induction false} ReverseStep(nodes: seq<NodeId>, b: seq<NodeId>)
    requires nodes != []
    ensures Reverse(nodes[1..]) + ([nodes[0]] + b) == Reverse(nodes) + b
  {
    var r := Reverse(nodes[1..]);
    assert Reverse(nodes) == r + [nodes[0]];
    assert r + ([nodes[0]] + b) == (r + [nodes[0]]) + b;
  }

  lemma FreshAfterPrepend(bs: seq<seq<NodeId>>, key: NodeId, slot: NodeId, n: NodeId)
    requires key < |bs| && Fresh(bs, n) && n != slot
    ensures Fresh(bs[key := [slot] + bs[key]], n)
  {
    var bs1 := bs[key := [slot] + bs[key]];
    forall k, i | 0 <= k < |bs1| && 0 <= i < |bs1[k]|
      ensures bs1[k][i] != n
    {
      if k == key && i > 0 {
        assert bs1[k][i] == bs[key][i - 1];
      }
    }
  }

  lemma {:induction false} DelAllEmpties(t: Table, bs: seq<seq<NodeId>>, key: NodeId, order: seq<NodeId>)
    requires Abstracts(t, bs) && key < |bs|
    requires multiset(order) == multiset(bs[key])
    ensures forall n | n in order :: n in t.next && n in t.prev
    ensures Abstracts(DelAll(t, order), bs[key := []])
    decreases |order|
  {
    var b := bs[key];
    assert Ring(t, key, b);
    forall n | n in order
      ensures n in t.next && n in t.prev
    {
      assert n in multiset(b);
    }
    if order == [] {
      assert |b| == |multiset(b)| == 0;
      assert bs[key := []] == bs;
    } else {
      assert order[0] in multiset(b);
      var i :| 0 <= i < |b| && b[i] == order[0];
      DelRemoves(t, bs, key, i);
      var t1 := Del(t, order[0]);
      var b1 := b[..i] + b[i + 1..];
      var bs1 := bs[key := b1];
      RemoveFromBoth(order, b, i);
      DelAllEmpties(t1, bs1, key, order[1..]);
      assert bs1[key := []] == bs[key := []];
    }
  }

  /** Inserting N distinct nodes into one bucket of a fresh table and then
      deleting all of them, in any order, leaves the empty circle. */
  lemma InsertThenDeleteAllEmpties(bits: nat, key: NodeId, nodes: seq<NodeId>, order: seq<NodeId>)
    requires key < Pow2(bits)
    requires DistinctNodes(nodes) && forall n | n in nodes :: n >= Pow2(bits)
    requires multiset(order) == multiset(nodes)
    ensures forall n | n in order :: n in AddAll(Init(bits), key, nodes).next
    ensures forall n | n in order :: n in AddAll(Init(bits), key, nodes).prev
    ensures DelAll(AddAll(Init(bits), key, nodes), order).next[key] == key
    ensures DelAll(AddAll(Init(bits), key, nodes), order).prev[key] == key
  {
    var bs := EmptyBuckets(Pow2(bits));
    var t0 := Init(bits);
    InitIsEmpty(bits);
    forall n | n in nodes
      ensures Fresh(bs, n)
    {
    }
    AddAllPrepends(t0, bs, key, nodes);
    var t1 := AddAll(t0, key, nodes);
    var bs1 := bs[key := Reverse(nodes) + bs[key]];
    assert bs1[key] == Reverse(nodes);
    ReverseSameMultiset(nodes);
    DelAllEmpties(t1, bs1, key, order);
    var t2 := DelAll(t1, order);
    assert bs1[key := []][key] == [];
    assert Ring(t2, key, []);
  }

  lemma {:induction false} ReverseSameMultiset(s: seq<NodeId>)
    ensures multiset(Reverse(s)) == multiset(s)
  {
    if s != [] {
      ReverseSameMultiset(s[1..]);
      assert s == [s[0]] + s[1..];
    }
  }

  /** Taking the same element out of two sequences with equal multisets
      leaves equal multisets. */
  lemma RemoveFromBoth(order: seq<NodeId>, b: seq<NodeId>, i: nat)
    requires multiset(order) == multiset(b) && |order| > 0 && i < |b| && b[i] == order[0]
    ensures multiset(order[1..]) == multiset(b[..i] + b[i + 1..])
  {
    assert b == b[..i] + [b[i]] + b[i + 1..];
    assert multiset(b) == multiset(b[..i]) + multiset{b[i]} + multiset(b[i + 1..]);
    assert order == [order[0]] + order[1..];
    assert multiset(order) == multiset{order[0]} + multiset(order[1..]);
    assert multiset(b[..i] + b[i + 1..]) == multiset(b[..i]) + multiset(b[i + 1..]);
    assert multiset(order[1..]) == multiset(order) - multiset{order[0]};
    assert multiset(b[..i] + b[i + 1..]) == multiset(b) - multiset{b[i]};
  }
}

=== FILE: dentrylog.dfy ===
/** The append-only dentry log of a directory (namei.c): records are
    written at consecutive slots, MAX_DENTRY_PER_BLK to a block, blocks
    are registered in the directory's linix index, and the name table of
    module DirTable points at the live record of every name.

    Slots are named logically, `Loc(blk, ix)` being slot `ix` of logical
    block `blk`; the media address of a slot is derived from the address
    linix holds for its block (TRANS_OFS_TO_ADDR is taken as the identity
    on those values). */
module DentryLog {
  import opened Kernel
  import opened Media
  import DirTable

  /** MAX_DENTRY_PER_BLK and sizeof(struct hk_dentry). */
  datatype Geometry = Geometry(perBlk: nat, dentrySize: nat)

  /** dentry_ix is a u16, so a block holds at most 2^16 slots. */
  predicate GeometryOk(g: Geometry)
  {
    0 < g.perBlk <= U16_MODULUS && 0 < g.dentrySize
  }

  /** The per-directory state hk_append_dentry_innvm works on:
      sih->dirs, sih->i_num_dentrys, sih->ix and the records themselves. */
  datatype Dir = Dir(table: DirTable.Table, numDentrys: nat, linix: map<nat, nat>, store: DirTable.Store)

  /** What the calls the append path makes outside this file return:
      hk_trv_prepared_layouts (None is NULL, otherwise the prepared
      target address), hk_prepare_gap's target address (0 is failure),
      whether hk_alloc_hk_dentry_info succeeds, and get_version. */
  datatype Alloc = Alloc(prep: Option<nat>, gap: nat, infoOk: bool, version: nat)

  /** Status, the directory afterwards, the slot *out_direntry points at,
      and its media address (0 when there is none). */
  datatype Outcome = Outcome(err: int, dir: Dir, out: Option<Loc>, addr: nat)

  /** hk_inode_by_name's two results: the inode number (-1 when the name
      is not indexed) and *res_entry. */
  datatype Found = Found(ino: int, entry: Option<Loc>)

  /** hk_dentry_by_ix_from_blk: the address of slot `ix` of the block at
      `blkAddr`. */
  function DentryAt(blkAddr: nat, ix: nat, size: nat): (addr: nat)
    ensures addr >= blkAddr
    ensures size > 0 ==> addr - blkAddr >= ix
  {
    blkAddr + ix * size
  }

  /** The slot that the `n`-th record of the log occupies. */
  function SlotOf(n: nat, perBlk: nat): (l: Loc)
    requires perBlk > 0
    ensures l.ix < perBlk
    ensures l.blk * perBlk + l.ix == n
  {
    Loc(n / perBlk, n % perBlk)
  }

  /** linix_get: the block's registered address, 0 when unregistered. */
  function LinixGet(linix: map<nat, nat>, blk: nat): nat
  {
    if blk in linix then linix[blk] else 0
  }

  /** Slot `l` is one of the first `n` slots of the log. */
  predicate InUse(g: Geometry, n: nat, l: Loc)
  {
    l.ix < g.perBlk && l.blk * g.perBlk + l.ix < n
  }

  /** Logical block `b` holds at least one of the first `n` slots. */
  predicate BlockInUse(g: Geometry, n: nat, b: nat)
  {
    b * g.perBlk < n
  }

  /** The directory invariant: the name table is consistent with the
      records, the records are exactly the slots used so far, and every
      block that holds a used slot is registered at a nonzero address. */
  ghost predicate WF(h: DirTable.Hashing, g: Geometry, d: Dir)
  {
    && GeometryOk(g)
    && DirTable.Valid(h, d.table, d.store)
    && DirTable.UniqueNames(d.table, d.store)
    && (forall l: Loc :: l in d.store <==> InUse(g, d.numDentrys, l))
    && (forall b: nat | BlockInUse(g, d.numDentrys, b) :: LinixGet(d.linix, b) != 0)
  }

  /** The allocator never hands out address 0 as a prepared layout. */
  predicate AllocSane(a: Alloc)
  {
    a.prep.Some? ==> a.prep.value != 0
  }

  /** The address hk_append_dentry_innvm writes to for a new record, or
      None when both layout preparation and gap preparation fail. */
  function BlockFor(d: Dir, g: Geometry, a: Alloc): (r: Option<nat>)
    requires g.perBlk > 0
    ensures var l := SlotOf(d.numDentrys, g.perBlk);
            && (l.ix != 0 || LinixGet(d.linix, l.blk) != 0 ==> r == Some(LinixGet(d.linix, l.blk)))
            && (l.ix == 0 && LinixGet(d.linix, l.blk) == 0 ==>
                  && (r.None? <==> a.prep.None? && a.gap == 0)
                  && (a.prep.Some? ==> r == a.prep)
                  && (a.prep.None? && a.gap != 0 ==> r == Some(a.gap)))
  {
    var l := SlotOf(d.numDentrys, g.perBlk);
    if l.ix == 0 && LinixGet(d.linix, l.blk) == 0 then
      if a.prep.Some? then Some(a.prep.value)
      else if a.gap != 0 then Some(a.gap)
      else None
    else Some(LinixGet(d.linix, l.blk))
  }

  /** hk_append_dentry_innvm. With ino == 0 the name's live record is
      invalidated in place and the name leaves the table; otherwise a new
      record is written at the next slot, a block is taken and registered
      when the slot opens an unregistered block, the count grows and the
      name is indexed. The status of the table insertion is not looked at,
      so a failed node allocation leaves the record written but unindexed. */
  function Append(h: DirTable.Hashing, g: Geometry, d: Dir, name: Name, ino: Ino, linkChange: u16, a: Alloc): (r: Outcome)
    requires GeometryOk(g) && DirTable.Indexable(h, d.table, d.store)
    ensures DirTable.Indexable(h, r.dir.table, r.dir.store)
    ensures ino == 0 && DirTable.Search(h, d.table, d.store, name).None? ==> r == Outcome(-ENOENT, d, None, 0)
    ensures ino == 0 && DirTable.Search(h, d.table, d.store, name).Some? ==>
              var at := DirTable.Search(h, d.table, d.store, name).value.direntry;
              && r.err == 0
              && r.out == Some(at)
              && r.dir.numDentrys == d.numDentrys
              && r.dir.linix == d.linix
              && r.dir.store == d.store[at := d.store[at].(valid := false, tstamp := a.version)]
              && r.dir.table == DirTable.Remove(h, d.table, d.store, name)
    ensures ino != 0 && BlockFor(d, g, a).None? ==> r == Outcome(-ENOSPC, d, None, 0)
    ensures ino != 0 && BlockFor(d, g, a).Some? ==>
              var l := SlotOf(d.numDentrys, g.perBlk);
              && r.err == 0
              && r.out == Some(l)
              && r.dir.numDentrys == d.numDentrys + 1
              && r.dir.store == d.store[l := Dentry(ino, |name|, name, linkChange, true, a.version)]
              && LinixGet(r.dir.linix, l.blk) == BlockFor(d, g, a).value
              && (forall b | b != l.blk :: LinixGet(r.dir.linix, b) == LinixGet(d.linix, b))
              && r.addr == DentryAt(BlockFor(d, g, a).value, l.ix, g.dentrySize)
              && r.dir.table == DirTable.Insert(h, d.table, name, l, a.infoOk).table
  {
    if ino == 0 then
      match DirTable.Search(h, d.table, d.store, name)
      case None => Outcome(-ENOENT, d, None, 0)
      case Some(di) =>
        var at := di.direntry;
        var store := d.store[at := d.store[at].(valid := false, tstamp := a.version)];
        // the records' names are untouched, so removing against the old
        // or the updated records is the same
        DirTable.KeysFrame(h, DirTable.Remove(h, d.table, d.store, name), d.store, store);
        Outcome(0, d.(table := DirTable.Remove(h, d.table, d.store, name), store := store), Some(at), 0)
    else
      match BlockFor(d, g, a)
      case None => Outcome(-ENOSPC, d, None, 0)
      case Some(blkAddr) =>
        var l := SlotOf(d.numDentrys, g.perBlk);
        var linix := if l.ix == 0 && LinixGet(d.linix, l.blk) == 0 then d.linix[l.blk := blkAddr] else d.linix;
        var store := d.store[l := Dentry(ino, |name|, name, linkChange, true, a.version)];
        var table := DirTable.Insert(h, d.table, name, l, a.infoOk).table;
        DirTable.KeysFrame(h, d.table, d.store, store);
        DirTable.InsertIndexable(h, d.table, store, name, l, a.infoOk);
        Outcome(0, Dir(table, d.numDentrys + 1, linix, store), Some(l), DentryAt(blkAddr, l.ix, g.dentrySize))
  }

  /** hk_add_dentry: an empty name is refused before anything changes. */
  function AddDentry(h: DirTable.Hashing, g: Geometry, d: Dir, name: Name, ino: Ino, linkChange: u16, a: Alloc): (r: Outcome)
    requires GeometryOk(g) && DirTable.Indexable(h, d.table, d.store)
    ensures |name| == 0 ==> r == Outcome(-EINVAL, d, None, 0)
    ensures |name| > 0 ==> r == Append(h, g, d, name, ino, linkChange, a)
  {
    if |name| == 0 then Outcome(-EINVAL, d, None, 0)
    else Append(h, g, d, name, ino, linkChange, a)
  }

  /** hk_inode_by_name: -1 when the name is not indexed, otherwise the
      inode number of the record the table points at, and that record. */
  function InodeByName(h: DirTable.Hashing, d: Dir, name: Name): (r: Found)
    requires DirTable.Indexable(h, d.table, d.store)
    ensures r.ino == -1 <==> DirTable.Search(h, d.table, d.store, name).None?
    ensures r.entry.Some? <==> r.ino != -1
    ensures r.entry.Some? ==>
              && r.entry == Some(DirTable.Search(h, d.table, d.store, name).value.direntry)
              && r.entry.value in d.store
              && d.store[r.entry.value].name == name
              && r.ino == d.store[r.entry.value].ino
  {
    match DirTable.Search(h, d.table, d.store, name)
    case None => Found(-1, None)
    case Some(di) => Found(d.store[di.direntry].ino, Some(di.direntry))
  }

  // ---------------------------------------------------------------------
  // Slot arithmetic
  // ---------------------------------------------------------------------

  lemma ProductBelow(x: int, p: int)
    requires p > 0 && -p < x * p < p
    ensures x == 0
  {
  }

  /** A slot is determined by its position in the log: the slot written
      for count `n` is the only slot whose position is `n`. */
  lemma SlotUnique(l: Loc, n: nat, perBlk: nat)
    requires perBlk > 0 && l.ix < perBlk && l.blk * perBlk + l.ix == n
    ensures l == SlotOf(n, perBlk)
  {
    var s := SlotOf(n, perBlk);
    assert (l.blk - s.blk) * perBlk == s.ix - l.ix;
    ProductBelow(l.blk - s.blk, perBlk);
  }

  /** hk_dentry_by_ix_from_blk can be inverted: the offset of a record
      from its block's address identifies its slot. */
  lemma DentryAtInverse(blkAddr: nat, ix: nat, size: nat)
    requires size > 0
    ensures (DentryAt(blkAddr, ix, size) - blkAddr) / size == ix
    ensures (DentryAt(blkAddr, ix, size) - blkAddr) % size == 0
  {
    var off := DentryAt(blkAddr, ix, size) - blkAddr;
    var q, r := off / size, off % size;
    assert (ix - q) * size == r;
    ProductBelow(ix - q, size);
  }

  /** Records are laid out back to back: the records of two different
      slots of one block do not overlap. */
  lemma RecordsDisjoint(blkAddr: nat, i: nat, j: nat, size: nat)
    requires i < j
    ensures DentryAt(blkAddr, i, size) + size <= DentryAt(blkAddr, j, size)
  {
    assert j * size == i * size + (j - i) * size;
    assert (j - i) * size >= size by { assert (j - i) * size == (j - i - 1) * size + size; }
  }

  /** A block is only ever taken for the first slot of a block: in a
      well-formed directory the block of a mid-block slot is registered,
      so an append there cannot fail for lack of space. */
  lemma NoAllocMidBlock(h: DirTable.Hashing, g: Geometry, d: Dir, a: Alloc)
    requires WF(h, g, d)
    requires SlotOf(d.numDentrys, g.perBlk).ix != 0
    ensures LinixGet(d.linix, SlotOf(d.numDentrys, g.perBlk).blk) != 0
    ensures BlockFor(d, g, a) == Some(LinixGet(d.linix, SlotOf(d.numDentrys, g.perBlk).blk))
  {
    var l := SlotOf(d.numDentrys, g.perBlk);
    assert BlockInUse(g, d.numDentrys, l.blk);
  }

  /** Appending to a directory whose count is `n` uses slot `n`: the used
      slots afterwards are exactly the used slots before plus that one. */
  lemma NextSlotIsFresh(g: Geometry, n: nat, l: Loc)
    requires GeometryOk(g)
    ensures InUse(g, n + 1, l) <==> InUse(g, n, l) || l == SlotOf(n, g.perBlk)
    ensures !InUse(g, n, SlotOf(n, g.perBlk))
  {
    if InUse(g, n + 1, l) && !InUse(g, n, l) {
      SlotUnique(l, n, g.perBlk);
    }
  }

  lemma NextBlockRegistered(g: Geometry, n: nat, b: nat)
    requires GeometryOk(g) && BlockInUse(g, n + 1, b) && !BlockInUse(g, n, b)
    ensures b == SlotOf(n, g.perBlk).blk && SlotOf(n, g.perBlk).ix == 0
  {
    SlotUnique(Loc(b, 0), n, g.perBlk);
  }

  // ---------------------------------------------------------------------
  // Properties of the append path
  // ---------------------------------------------------------------------

  /** A successful append keeps the directory invariant, provided the name
      is not indexed yet (the VFS only creates names that are absent). */
  lemma AppendKeepsWF(h: DirTable.Hashing, g: Geometry, d: Dir, name: Name, ino: Ino, linkChange: u16, a: Alloc)
    requires WF(h, g, d) && AllocSane(a) && ino != 0
    requires DirTable.Search(h, d.table, d.store, name).None?
    ensures WF(h, g, Append(h, g, d, name, ino, linkChange, a).dir)
  {
    var r := Append(h, g, d, name, ino, linkChange, a);
    if BlockFor(d, g, a).Some? {
      var n := d.numDentrys;
      var l := SlotOf(n, g.perBlk);
      NextSlotIsFresh(g, n, l);
      var store := r.dir.store;
      assert DirTable.SameNames(d.store, store);
      DirTable.ValidFrame(h, d.table, d.store, store);
      DirTable.TableFrame(h, d.table, d.store, store, name);
      if a.infoOk {
        DirTable.InsertKeepsValid(h, d.table, store, name, l);
        DirTable.InsertFreshKeepsUnique(h, d.table, store, name, l);
      }
      forall l': Loc
        ensures l' in store <==> InUse(g, n + 1, l')
      {
        NextSlotIsFresh(g, n, l');
      }
      forall b: nat | BlockInUse(g, n + 1, b)
        ensures LinixGet(r.dir.linix, b) != 0
      {
        if !BlockInUse(g, n, b) {
          NextBlockRegistered(g, n, b);
        }
      }
    }
  }

  /** After a successful append the lookup of the name finds the new
      record and its inode number. */
  lemma AppendThenLookup(h: DirTable.Hashing, g: Geometry, d: Dir, name: Name, ino: Ino, linkChange: u16, a: Alloc)
    requires WF(h, g, d) && ino != 0 && a.infoOk
    requires BlockFor(d, g, a).Some?
    ensures InodeByName(h, Append(h, g, d, name, ino, linkChange, a).dir, name)
              == Found(ino, Some(SlotOf(d.numDentrys, g.perBlk)))
  {
    var r := Append(h, g, d, name, ino, linkChange, a);
    var l := SlotOf(d.numDentrys, g.perBlk);
    NextSlotIsFresh(g, d.numDentrys, l);
    DirTable.TableFrame(h, d.table, d.store, r.dir.store, name);
    DirTable.InsertThenSearch(h, d.table, r.dir.store, name, l);
  }

  /** As written, hk_add_dentry ignores the status of hk_insert_dir_table:
      when the index node cannot be allocated the record is still written
      and 0 is returned, yet a name that was not indexed before still does
      not resolve. */
  lemma AppendAsWrittenLosesName(h: DirTable.Hashing, g: Geometry, d: Dir, name: Name, ino: Ino, linkChange: u16, a: Alloc)
    requires WF(h, g, d) && ino != 0 && !a.infoOk
    requires BlockFor(d, g, a).Some? && DirTable.Search(h, d.table, d.store, name).None?
    ensures Append(h, g, d, name, ino, linkChange, a).err == 0
    ensures InodeByName(h, Append(h, g, d, name, ino, linkChange, a).dir, name).ino == -1
  {
    var r := Append(h, g, d, name, ino, linkChange, a);
    NextSlotIsFresh(g, d.numDentrys, SlotOf(d.numDentrys, g.perBlk));
    DirTable.TableFrame(h, d.table, d.store, r.dir.store, name);
  }

  /** hk_append_dentry_innvm with the index status passed on: an append
      whose index node cannot be allocated reports -ENOMEM (the record has
      already been written by then); every other outcome is the code's. */
  function AppendChecked(h: DirTable.Hashing, g: Geometry, d: Dir, name: Name, ino: Ino, linkChange: u16, a: Alloc): (r: Outcome)
    requires GeometryOk(g) && DirTable.Indexable(h, d.table, d.store)
    ensures ino != 0 && BlockFor(d, g, a).Some? ==> (r.err == -ENOMEM <==> !a.infoOk)
    ensures r.err != -ENOMEM ==> r == Append(h, g, d, name, ino, linkChange, a)
    ensures r.err == -ENOMEM ==>
              ino != 0 && BlockFor(d, g, a).Some? && !a.infoOk && r.dir == Append(h, g, d, name, ino, linkChange, a).dir
  {
    var out := Append(h, g, d, name, ino, linkChange, a);
    if ino != 0 && out.err == 0 && !a.infoOk then Outcome(-ENOMEM, out.dir, None, 0) else out
  }

  /** With the status passed on, every successful append resolves. */
  lemma AppendCheckedThenLookup(h: DirTable.Hashing, g: Geometry, d: Dir, name: Name, ino: Ino, linkChange: u16, a: Alloc)
    requires WF(h, g, d) && ino != 0
    requires AppendChecked(h, g, d, name, ino, linkChange, a).err == 0
    ensures InodeByName(h, AppendChecked(h, g, d, name, ino, linkChange, a).dir, name)
              == Found(ino, Some(SlotOf(d.numDentrys, g.perBlk)))
  {
    AppendThenLookup(h, g, d, name, ino, linkChange, a);
  }

  /** Removal by ino == 0 keeps the invariant and leaves the name
      unindexed, so a following lookup reports -1. */
  lemma RemoveThenLookup(h: DirTable.Hashing, g: Geometry, d: Dir, name: Name, linkChange: u16, a: Alloc)
    requires WF(h, g, d)
    ensures WF(h, g, Append(h, g, d, name, 0, linkChange, a).dir)
    ensures InodeByName(h, Append(h, g, d, name, 0, linkChange, a).dir, name).ino == -1
  {
    var r := Append(h, g, d, name, 0, linkChange, a);
    DirTable.RemoveThenSearch(h, d.table, d.store, name);
    var s := DirTable.Search(h, d.table, d.store, name);
    if s.Some? {
      var t := DirTable.Remove(h, d.table, d.store, name);
      assert DirTable.SameNames(d.store, r.dir.store);
      DirTable.ValidFrame(h, t, d.store, r.dir.store);
      DirTable.TableFrame(h, t, d.store, r.dir.store, name);
    }
  }

  /** Removing one name by ino == 0 leaves the lookup of every other name
      as it was. */
  lemma RemoveKeepsOtherNames(h: DirTable.Hashing, g: Geometry, d: Dir, gone: Name, name: Name, linkChange: u16, a: Alloc)
    requires GeometryOk(g) && DirTable.Indexable(h, d.table, d.store) && gone != name
    ensures InodeByName(h, Append(h, g, d, gone, 0, linkChange, a).dir, name) == InodeByName(h, d, name)
  {
    var r := Append(h, g, d, gone, 0, linkChange, a);
    if DirTable.Search(h, d.table, d.store, gone).Some? {
      assert DirTable.SameNames(d.store, r.dir.store);
      DirTable.TableFrame(h, r.dir.table, d.store, r.dir.store, name);
      DirTable.RemoveOtherKeepsSearch(h, d.table, d.store, gone, name);
    }
  }
}

=== FILE: dirtable.dfy ===
/** The per-directory name index of namei.c: a fixed number of buckets of
    hk_dentry_info nodes, keyed by BKDRHash of the entry name, each node
    pointing at the on-media record that currently holds the name.

    A bucket is a sequence in list order: insertion puts the new node at
    the front and a lookup returns the first node whose record carries
    the name. BKDRHash and HK_HASH_BITS are not defined here; they are the
    `Hashing` parameter. The reduction of the hash to a bucket index done
    by the hash_*_bits macros is modelled as the hash modulo the bucket
    count. */
module DirTable {
  import opened Kernel
  import opened Media

  /** struct hk_dentry_info: the cached hash and the record it refers to. */
  datatype DentryInfo = DentryInfo(hash: nat, direntry: Loc)

  /** HK_HASH_BITS and BKDRHash(name, namelen). */
  datatype Hashing = Hashing(bits: nat, bkdr: Name -> nat)

  datatype Table = Table(buckets: seq<seq<DentryInfo>>)

  /** The records a table can point into: the directory's dentry slots. */
  type Store = map<Loc, Dentry>

  /** Status and table after an operation that may fail. */
  datatype Res = Res(err: int, table: Table)

  function BucketOf(h: Hashing, hash: nat): (k: nat)
    ensures k < Pow2(h.bits)
  {
    hash % Pow2(h.bits)
  }

  /** The bucket that the lookup of `name` examines. */
  function KeyOf(h: Hashing, name: Name): (k: nat)
    ensures k < Pow2(h.bits)
  {
    BucketOf(h, h.bkdr(name))
  }

  predicate Shaped(h: Hashing, t: Table)
  {
    |t.buckets| == Pow2(h.bits)
  }

  predicate RefsIn(b: seq<DentryInfo>, store: Store)
  {
    forall i | 0 <= i < |b| :: b[i].direntry in store
  }

  /** Every node points at a record that exists: what the C code needs to
      dereference `cur->direntry->name` during a bucket walk. */
  predicate Indexable(h: Hashing, t: Table, store: Store)
  {
    && Shaped(h, t)
    && forall k | 0 <= k < |t.buckets| :: RefsIn(t.buckets[k], store)
  }

  /** The record behind node `di` carries `name`; strcmp(...) == 0. */
  predicate NameIs(store: Store, di: DentryInfo, name: Name)
    requires di.direntry in store
  {
    store[di.direntry].name == name
  }

  /** The representation invariant: every node's cached hash is the hash
      of the name its record carries, and the node sits in the bucket that
      hash selects. */
  ghost predicate Valid(h: Hashing, t: Table, store: Store)
  {
    && Indexable(h, t, store)
    && forall k, i | 0 <= k < |t.buckets| && 0 <= i < |t.buckets[k]| ::
         && t.buckets[k][i].hash == h.bkdr(store[t.buckets[k][i].direntry].name)
         && BucketOf(h, t.buckets[k][i].hash) == k
  }

  /** No name is held by two nodes of one bucket (and so, under Valid, of
      the whole table). The table itself does not enforce this; callers
      must not insert a name that is present. */
  ghost predicate UniqueNames(t: Table, store: Store)
  {
    forall k, i, j | 0 <= k < |t.buckets| && 0 <= i < j < |t.buckets[k]| ::
      t.buckets[k][i].direntry in store && t.buckets[k][j].direntry in store ==>
        store[t.buckets[k][i].direntry].name != store[t.buckets[k][j].direntry].name
  }

  /** All nodes, bucket by bucket, in the order a full-table walk meets them. */
  function Flatten(bs: seq<seq<DentryInfo>>): (all: seq<DentryInfo>)
    ensures bs == [] ==> all == []
  {
    if bs == [] then [] else Flatten(bs[..|bs| - 1]) + bs[|bs| - 1]
  }

  /** Number of nodes in the table. */
  function Count(t: Table): nat
  {
    |Flatten(t.buckets)|
  }

  // ---------------------------------------------------------------------
  // Operations
  // ---------------------------------------------------------------------

  /** The freshly initialised table of a new directory. */
  function Empty(h: Hashing): (t: Table)
    ensures Shaped(h, t)
    ensures forall k | 0 <= k < |t.buckets| :: t.buckets[k] == []
  {
    Table(seq(Pow2(h.bits), _ => []))
  }

  /** The position of the first node of `b` whose record carries `name`,
      or |b| when there is none: the walk of namei.c:32-37 and 90-97. */
  function FirstMatch(store: Store, b: seq<DentryInfo>, name: Name): (i: nat)
    requires RefsIn(b, store)
    ensures i <= |b|
    ensures i < |b| ==> NameIs(store, b[i], name)
    ensures forall j | 0 <= j < i :: !NameIs(store, b[j], name)
    decreases |b|
  {
    if |b| == 0 then 0
    else if NameIs(store, b[0], name) then 0
    else 1 + FirstMatch(store, b[1..], name)
  }

  /** hk_search_dir_table: the first node of bucket KeyOf(name) whose
      record carries `name`, or None (NULL). */
  function Search(h: Hashing, t: Table, store: Store, name: Name): (r: Option<DentryInfo>)
    requires Indexable(h, t, store)
    ensures r.None? <==>
              forall i | 0 <= i < |t.buckets[KeyOf(h, name)]| ::
                !NameIs(store, t.buckets[KeyOf(h, name)][i], name)
    ensures r.Some? ==>
              exists i | 0 <= i < |t.buckets[KeyOf(h, name)]| ::
                && t.buckets[KeyOf(h, name)][i] == r.value
                && NameIs(store, r.value, name)
                && forall j | 0 <= j < i :: !NameIs(store, t.buckets[KeyOf(h, name)][j], name)
  {
    var b := t.buckets[KeyOf(h, name)];
    var i := FirstMatch(store, b, name);
    if i < |b| then Some(b[i]) else None
  }

  /** hk_insert_dir_table, with the success status the code evidently
      means: on allocation failure -ENOMEM and the table untouched;
      otherwise a node with the name's hash, pointing at `loc`, at the
      head of the name's bucket. There is no duplicate check. */
  function Insert(h: Hashing, t: Table, name: Name, loc: Loc, allocOk: bool): (r: Res)
    requires Shaped(h, t)
    ensures !allocOk ==> r == Res(-ENOMEM, t)
    ensures allocOk ==> r.err == 0
    ensures allocOk ==>
              && Shaped(h, r.table)
              && r.table.buckets[KeyOf(h, name)] == [DentryInfo(h.bkdr(name), loc)] + t.buckets[KeyOf(h, name)]
              && forall k | 0 <= k < |t.buckets| && k != KeyOf(h, name) :: r.table.buckets[k] == t.buckets[k]
  {
    if !allocOk then Res(-ENOMEM, t)
    else
      var di := DentryInfo(h.bkdr(name), loc);
      var k := KeyOf(h, name);
      Res(0, Table(t.buckets[k := [di] + t.buckets[k]]))
  }

  /** hk_insert_dir_table as written: the success path ends without a
      return statement, so the caller receives whatever value happens to
      be in the return register, here the parameter `leftover`. */
  function InsertAsWritten(h: Hashing, t: Table, name: Name, loc: Loc, allocOk: bool, leftover: int): (r: Res)
    requires Shaped(h, t)
    ensures r.table == Insert(h, t, name, loc, allocOk).table
    ensures allocOk ==> r.err == leftover
    ensures !allocOk ==> r.err == -ENOMEM
  {
    if !allocOk then Res(-ENOMEM, t)
    else Res(leftover, Insert(h, t, name, loc, allocOk).table)
  }

  /** The defect of hk_insert_dir_table: whenever the leftover register
      value is nonzero, a caller that checked the status would see a
      failure although the node was inserted and is what a lookup finds. */
  lemma InsertAsWrittenMisreports(h: Hashing, t: Table, store: Store, name: Name, loc: Loc, leftover: int)
    requires Indexable(h, t, store) && loc in store && store[loc].name == name && leftover != 0
    ensures var r := InsertAsWritten(h, t, name, loc, true, leftover);
            && r.err != 0
            && Indexable(h, r.table, store)
            && Search(h, r.table, store, name) == Some(DentryInfo(h.bkdr(name), loc))
  {
    InsertThenSearch(h, t, store, name, loc);
  }

  /** hk_update_dir_table: -ENOENT when the name is not indexed; otherwise
      the found node is repointed at `loc` and nothing else changes. */
  function Update(h: Hashing, t: Table, store: Store, name: Name, loc: Loc): (r: Res)
    requires Indexable(h, t, store)
    ensures Search(h, t, store, name).None? ==> r == Res(-ENOENT, t)
    ensures Search(h, t, store, name).Some? ==>
              var k := KeyOf(h, name);
              var i := FirstMatch(store, t.buckets[k], name);
              && r.err == 0
              && Shaped(h, r.table)
              && |r.table.buckets[k]| == |t.buckets[k]|
              && r.table.buckets[k][i] == t.buckets[k][i].(direntry := loc)
              && (forall j | 0 <= j < |t.buckets[k]| && j != i :: r.table.buckets[k][j] == t.buckets[k][j])
              && (forall k' | 0 <= k' < |t.buckets| && k' != k :: r.table.buckets[k'] == t.buckets[k'])
  {
    var k := KeyOf(h, name);
    var b := t.buckets[k];
    var i := FirstMatch(store, b, name);
    if i == |b| then Res(-ENOENT, t)
    else Res(0, Table(t.buckets[k := b[i := b[i].(direntry := loc)]]))
  }

  /** hk_remove_dir_table: unlink the first node of the name's bucket
      whose record carries the name; a no-op when there is none. */
  function Remove(h: Hashing, t: Table, store: Store, name: Name): (r: Table)
    requires Indexable(h, t, store)
    ensures Indexable(h, r, store)
    ensures var k := KeyOf(h, name);
            var i := FirstMatch(store, t.buckets[k], name);
            && (i == |t.buckets[k]| ==> r == t)
            && (i < |t.buckets[k]| ==> r.buckets[k] == t.buckets[k][..i] + t.buckets[k][i + 1..])
            && forall k' | 0 <= k' < |t.buckets| && k' != k :: r.buckets[k'] == t.buckets[k']
  {
    var k := KeyOf(h, name);
    var b := t.buckets[k];
    var i := FirstMatch(store, b, name);
    if i == |b| then t
    else
      var rest := b[..i] + b[i + 1..];
      assert forall j | 0 <= j < |rest| :: rest[j] == b[if j < i then j else j + 1];
      Table(t.buckets[k := rest])
  }

  /** hk_destory_dir_table: walk every bucket and unlink and free each
      node. Returns the emptied table and the freed nodes in walk order. */
  method Destroy(t: Table) returns (r: Table, freed: seq<DentryInfo>)
    ensures |r.buckets| == |t.buckets|
    ensures forall k | 0 <= k < |r.buckets| :: r.buckets[k] == []
    ensures freed == Flatten(t.buckets)
    ensures |freed| == Count(t)
  {
    var buckets := t.buckets;
    freed := [];
    var bkt := 0;
    while bkt < |buckets|
      invariant 0 <= bkt <= |buckets| == |t.buckets|
      invariant forall k | 0 <= k < bkt :: buckets[k] == []
      invariant forall k | bkt <= k < |buckets| :: buckets[k] == t.buckets[k]
      invariant freed == Flatten(t.buckets[..bkt])
    {
      var chain := FreeChain(buckets[bkt]);
      FlattenSnoc(t.buckets, bkt);
      freed := freed + chain;
      buckets := buckets[bkt := []];
      bkt := bkt + 1;
    }
    assert t.buckets[..|t.buckets|] == t.buckets;
    r := Table(buckets);
  }

  /** The inner loop of hk_destory_dir_table: unlink nodes from the head
      of one chain until it is empty, freeing each in turn. */
  method FreeChain(chain: seq<DentryInfo>) returns (freed: seq<DentryInfo>)
    ensures freed == chain
  {
    var b := chain;
    freed := [];
    while b != []
      invariant |b| <= |chain|
      invariant b == chain[|chain| - |b|..]
      invariant freed == chain[..|chain| - |b|]
      decreases |b|
    {
      freed := freed + [b[0]];
      b := b[1..];
    }
  }

  /** A walk over one more bucket meets that bucket's nodes last. */
  lemma FlattenSnoc(bs: seq<seq<DentryInfo>>, k: nat)
    requires k < |bs|
    ensures Flatten(bs[..k + 1]) == Flatten(bs[..k]) + bs[k]
  {
    assert bs[..k + 1][..k] == bs[..k];
  }

  /** hk_empty_dir: walk the buckets and report false at the first node. */
  method IsEmpty(t: Table) returns (empty: bool)
    ensures empty <==> forall k | 0 <= k < |t.buckets| :: t.buckets[k] == []
    ensures empty <==> Count(t) == 0
  {
    var bkt := 0;
    while bkt < |t.buckets|
      invariant 0 <= bkt <= |t.buckets|
      invariant forall k | 0 <= k < bkt :: t.buckets[k] == []
    {
      if t.buckets[bkt] != [] {
        CountZeroIffAllEmpty(t);
        return false;
      }
      bkt := bkt + 1;
    }
    CountZeroIffAllEmpty(t);
    return true;
  }

  /** The same check as a function, for use inside other functions. */
  predicate NoEntries(t: Table)
  {
    Flatten(t.buckets) == []
  }

  // ---------------------------------------------------------------------
  // Properties
  // ---------------------------------------------------------------------

  lemma {:induction false} FlattenEmptyIffAllEmpty(bs: seq<seq<DentryInfo>>)
    ensures Flatten(bs) == [] <==> forall k | 0 <= k < |bs| :: bs[k] == []
    decreases |bs|
  {
    if bs != [] {
      var init := bs[..|bs| - 1];
      FlattenEmptyIffAllEmpty(init);
      assert forall k | 0 <= k < |init| :: init[k] == bs[k];
    }
  }

  /** hk_empty_dir reports true exactly when no bucket holds a node. */
  lemma CountZeroIffAllEmpty(t: Table)
    ensures Count(t) == 0 <==> forall k | 0 <= k < |t.buckets| :: t.buckets[k] == []
    ensures NoEntries(t) <==> Count(t) == 0
  {
    FlattenEmptyIffAllEmpty(t.buckets);
  }

  /** The lookup examines one bucket only, and that is enough: under the
      invariant every node whose record carries `name` lives in bucket
      KeyOf(name), so a miss there is a miss in the whole table. */
  lemma SearchMissMeansAbsent(h: Hashing, t: Table, store: Store, name: Name)
    requires Valid(h, t, store)
    ensures Search(h, t, store, name).None? <==>
              forall k, i | 0 <= k < |t.buckets| && 0 <= i < |t.buckets[k]| ::
                !NameIs(store, t.buckets[k][i], name)
  {
    var key := KeyOf(h, name);
    forall k, i | 0 <= k < |t.buckets| && 0 <= i < |t.buckets[k]| && NameIs(store, t.buckets[k][i], name)
      ensures k == key
    {
      assert t.buckets[k][i].hash == h.bkdr(name);
    }
  }

  /** Inserting a node for a record that carries `name` keeps the
      invariant. */
  lemma InsertKeepsValid(h: Hashing, t: Table, store: Store, name: Name, loc: Loc)
    requires Valid(h, t, store) && loc in store && store[loc].name == name
    ensures Valid(h, Insert(h, t, name, loc, true).table, store)
  {
    var r := Insert(h, t, name, loc, true).table;
    var key := KeyOf(h, name);
    forall k, i | 0 <= k < |r.buckets| && 0 <= i < |r.buckets[k]|
      ensures r.buckets[k][i].direntry in store
      ensures r.buckets[k][i].hash == h.bkdr(store[r.buckets[k][i].direntry].name)
      ensures BucketOf(h, r.buckets[k][i].hash) == k
    {
      if k == key && i > 0 {
        assert r.buckets[k][i] == t.buckets[k][i - 1];
      }
    }
  }

  /** Inserting a name that is not indexed keeps names unique. */
  lemma InsertFreshKeepsUnique(h: Hashing, t: Table, store: Store, name: Name, loc: Loc)
    requires Valid(h, t, store) && UniqueNames(t, store)
    requires Search(h, t, store, name).None?
    requires loc in store && store[loc].name == name
    ensures UniqueNames(Insert(h, t, name, loc, true).table, store)
  {
    var r := Insert(h, t, name, loc, true).table;
    var key := KeyOf(h, name);
    forall k, i, j | 0 <= k < |r.buckets| && 0 <= i < j < |r.buckets[k]|
      ensures store[r.buckets[k][i].direntry].name != store[r.buckets[k][j].direntry].name
    {
      if k == key {
        assert r.buckets[k][j] == t.buckets[k][j - 1];
        if i > 0 {
          assert r.buckets[k][i] == t.buckets[k][i - 1];
        } else {
          assert !NameIs(store, t.buckets[k][j - 1], name);
        }
      }
    }
  }

  /** Head insertion makes the new node the one a lookup finds, even when
      an older node carries the same name. */
  lemma InsertThenSearch(h: Hashing, t: Table, store: Store, name: Name, loc: Loc)
    requires Indexable(h, t, store) && loc in store && store[loc].name == name
    ensures Indexable(h, Insert(h, t, name, loc, true).table, store)
    ensures Search(h, Insert(h, t, name, loc, true).table, store, name) == Some(DentryInfo(h.bkdr(name), loc))
  {
    var r := Insert(h, t, name, loc, true).table;
    var key := KeyOf(h, name);
    forall k | 0 <= k < |r.buckets|
      ensures RefsIn(r.buckets[k], store)
    {
      if k == key {
        forall i | 0 <= i < |r.buckets[k]|
          ensures r.buckets[k][i].direntry in store
        {
          if i > 0 {
            assert r.buckets[k][i] == t.buckets[k][i - 1];
          }
        }
      }
    }
  }

  /** Removing a name right after inserting it gives back the table. */
  lemma InsertThenRemove(h: Hashing, t: Table, store: Store, name: Name, loc: Loc)
    requires Indexable(h, t, store) && loc in store && store[loc].name == name
    ensures Remove(h, Insert(h, t, name, loc, true).table, store, name) == t
  {
    InsertThenSearch(h, t, store, name, loc);
    var r := Insert(h, t, name, loc, true).table;
    var key := KeyOf(h, name);
    var b := r.buckets[key];
    assert FirstMatch(store, b, name) == 0;
    assert b[..0] + b[1..] == t.buckets[key];
    assert r.buckets[key := t.buckets[key]] == t.buckets;
  }

  /** After a successful update the lookup finds the new record. */
  lemma UpdateThenSearch(h: Hashing, t: Table, store: Store, name: Name, loc: Loc)
    requires Valid(h, t, store) && loc in store && store[loc].name == name
    requires Search(h, t, store, name).Some?
    ensures Valid(h, Update(h, t, store, name, loc).table, store)
    ensures Search(h, Update(h, t, store, name, loc).table, store, name)
              == Some(Search(h, t, store, name).value.(direntry := loc))
  {
    var r := Update(h, t, store, name, loc).table;
    var key := KeyOf(h, name);
    var b := t.buckets[key];
    var i := FirstMatch(store, b, name);
    var b' := r.buckets[key];
    assert b' == b[i := b[i].(direntry := loc)];
    assert FirstMatchAt(store, b', name, i) by {
      forall j | 0 <= j < i
        ensures !NameIs(store, b'[j], name)
      {
        assert b'[j] == b[j];
      }
    }
    FirstMatchUnique(store, b', name, i);
    forall k, j | 0 <= k < |r.buckets| && 0 <= j < |r.buckets[k]|
      ensures r.buckets[k][j].direntry in store
      ensures r.buckets[k][j].hash == h.bkdr(store[r.buckets[k][j].direntry].name)
      ensures BucketOf(h, r.buckets[k][j].hash) == k
    {
      if k == key && j == i {
        assert t.buckets[k][j].hash == h.bkdr(store[b[i].direntry].name);
      }
    }
  }

  /** Position `i` holds the first node of `b` carrying `name`. */
  ghost predicate FirstMatchAt(store: Store, b: seq<DentryInfo>, name: Name, i: nat)
    requires RefsIn(b, store)
  {
    && i < |b|
    && NameIs(store, b[i], name)
    && forall j | 0 <= j < i :: !NameIs(store, b[j], name)
  }

  lemma {:induction false} FirstMatchUnique(store: Store, b: seq<DentryInfo>, name: Name, i: nat)
    requires RefsIn(b, store) && FirstMatchAt(store, b, name, i)
    ensures FirstMatch(store, b, name) == i
    decreases i
  {
    if i > 0 {
      assert FirstMatchAt(store, b[1..], name, i - 1) by {
        forall j | 0 <= j < i - 1
          ensures !NameIs(store, b[1..][j], name)
        {
          assert b[1..][j] == b[j + 1];
        }
      }
      FirstMatchUnique(store, b[1..], name, i - 1);
    }
  }

  /** Removal keeps the invariant and the uniqueness of names, and when
      the name was held by a single node, the lookup then misses. */
  lemma RemoveThenSearch(h: Hashing, t: Table, store: Store, name: Name)
    requires Valid(h, t, store) && UniqueNames(t, store)
    ensures Valid(h, Remove(h, t, store, name), store)
    ensures UniqueNames(Remove(h, t, store, name), store)
    ensures Search(h, Remove(h, t, store, name), store, name).None?
  {
    var r := Remove(h, t, store, name);
    var key := KeyOf(h, name);
    var b := t.buckets[key];
    var i := FirstMatch(store, b, name);
    if i < |b| {
      var b' := r.buckets[key];
      assert |b'| == |b| - 1;
      assert forall j | 0 <= j < |b'| :: b'[j] == (if j < i then b[j] else b[j + 1]);
      forall k, j | 0 <= k < |r.buckets| && 0 <= j < |r.buckets[k]|
        ensures r.buckets[k][j].direntry in store
        ensures r.buckets[k][j].hash == h.bkdr(store[r.buckets[k][j].direntry].name)
        ensures BucketOf(h, r.buckets[k][j].hash) == k
      {
        if k == key {
          assert r.buckets[k][j] == t.buckets[k][if j < i then j else j + 1];
        }
      }
      forall j | 0 <= j < |b'|
        ensures !NameIs(store, b'[j], name)
      {
        if j >= i {
          assert b'[j] == b[j + 1];
        }
      }
      forall k, j1, j2 | 0 <= k < |r.buckets| && 0 <= j1 < j2 < |r.buckets[k]|
        ensures store[r.buckets[k][j1].direntry].name != store[r.buckets[k][j2].direntry].name
      {
        if k == key {
          var o1 := if j1 < i then j1 else j1 + 1;
          var o2 := if j2 < i then j2 else j2 + 1;
          assert r.buckets[k][j1] == t.buckets[k][o1];
          assert r.buckets[k][j2] == t.buckets[k][o2];
        }
      }
    }
  }

  // ---------------------------------------------------------------------
  // The table only reads the names of the records it points at
  // ---------------------------------------------------------------------

  /** `s2` keeps every record of `s1` and its name; other fields (the
      valid bit, the timestamp) may differ, and records may be added. */
  ghost predicate SameNames(s1: Store, s2: Store)
  {
    && s1.Keys <= s2.Keys
    && forall l | l in s1 :: s2[l].name == s1[l].name
  }

  lemma {:induction false} FirstMatchFrame(s1: Store, s2: Store, b: seq<DentryInfo>, name: Name)
    requires RefsIn(b, s1) && SameNames(s1, s2)
    ensures RefsIn(b, s2)
    ensures FirstMatch(s1, b, name) == FirstMatch(s2, b, name)
    decreases |b|
  {
    if |b| > 0 {
      assert RefsIn(b[1..], s1) by {
        forall j | 0 <= j < |b| - 1
          ensures b[1..][j].direntry in s1
        {
          assert b[1..][j] == b[j + 1];
        }
      }
      FirstMatchFrame(s1, s2, b[1..], name);
    }
  }

  /** Search, Update and Remove see only names, so changing other fields
      of the records, or adding records, changes none of their results. */
  lemma TableFrame(h: Hashing, t: Table, s1: Store, s2: Store, name: Name)
    requires Indexable(h, t, s1) && SameNames(s1, s2)
    ensures Indexable(h, t, s2)
    ensures Search(h, t, s1, name) == Search(h, t, s2, name)
    ensures Remove(h, t, s1, name) == Remove(h, t, s2, name)
    ensures forall loc :: Update(h, t, s1, name, loc) == Update(h, t, s2, name, loc)
  {
    forall k | 0 <= k < |t.buckets|
      ensures RefsIn(t.buckets[k], s2)
    {
      FirstMatchFrame(s1, s2, t.buckets[k], name);
    }
    FirstMatchFrame(s1, s2, t.buckets[KeyOf(h, name)], name);
  }

  lemma ValidFrame(h: Hashing, t: Table, s1: Store, s2: Store)
    requires Valid(h, t, s1) && UniqueNames(t, s1) && SameNames(s1, s2)
    ensures Valid(h, t, s2) && UniqueNames(t, s2)
  {
    TableFrame(h, t, s1, s2, []);
  }

  /** Adding records never invalidates a node's reference. */
  lemma KeysFrame(h: Hashing, t: Table, s1: Store, s2: Store)
    requires Indexable(h, t, s1) && s1.Keys <= s2.Keys
    ensures Indexable(h, t, s2)
  {
    forall k, i | 0 <= k < |t.buckets| && 0 <= i < |t.buckets[k]|
      ensures t.buckets[k][i].direntry in s2
    {
      assert t.buckets[k][i].direntry in s1;
    }
  }

  lemma InsertIndexable(h: Hashing, t: Table, store: Store, name: Name, loc: Loc, allocOk: bool)
    requires Indexable(h, t, store) && loc in store
    ensures Indexable(h, Insert(h, t, name, loc, allocOk).table, store)
  {
    var r := Insert(h, t, name, loc, allocOk).table;
    var key := KeyOf(h, name);
    if allocOk {
      forall i | 0 <= i < |r.buckets[key]|
        ensures r.buckets[key][i].direntry in store
      {
        if i > 0 {
          assert r.buckets[key][i] == t.buckets[key][i - 1];
        }
      }
    }
  }

  /** Removing one name leaves the lookup of every other name as it was. */
  lemma RemoveOtherKeepsSearch(h: Hashing, t: Table, store: Store, gone: Name, name: Name)
    requires Indexable(h, t, store) && gone != name
    ensures Search(h, Remove(h, t, store, gone), store, name) == Search(h, t, store, name)
  {
    var r := Remove(h, t, store, gone);
    var key := KeyOf(h, name);
    var b := t.buckets[key];
    var i := FirstMatch(store, t.buckets[KeyOf(h, gone)], gone);
    if KeyOf(h, gone) == key && i < |b| {
      var b' := r.buckets[key];
      var j := FirstMatch(store, b, name);
      assert forall x | 0 <= x < |b'| :: b'[x] == (if x < i then b[x] else b[x + 1]);
      if j < i {
        assert FirstMatchAt(store, b', name, j);
        FirstMatchUnique(store, b', name, j);
      } else if j < |b| {
        assert j != i;
        assert FirstMatchAt(store, b', name, j - 1) by {
          forall x | 0 <= x < j - 1
            ensures !NameIs(store, b'[x], name)
          {
            if x >= i { assert b'[x] == b[x + 1]; }
          }
        }
        FirstMatchUnique(store, b', name, j - 1);
      } else {
        forall x | 0 <= x < |b'|
          ensures !NameIs(store, b'[x], name)
        {
          if x >= i { assert b'[x] == b[x + 1]; }
        }
      }
    }
  }
}

=== FILE: kernel.dfy ===
/** Vocabulary shared by every part of the model: optional values, names,
    the errno values the directory code returns, and the fixed-width
    arithmetic of the kernel integer types it stores. */
module Kernel {

  datatype Option<+T> = None | Some(value: T)

  /** A directory-entry name as the VFS hands it over: the bytes before the
      terminating NUL, so C's strcmp equality is sequence equality. */
  type Name = seq<char>

  /** An inode number. */
  type Ino = nat

  /** Linux errno values; the code returns their negation. */
  const ENOENT: int := 2
  const ENOMEM: int := 12
  const EINVAL: int := 22
  const ENOSPC: int := 28
  const EMLINK: int := 31
  const ENOTEMPTY: int := 39

  const U16_MODULUS: int := 0x1_0000
  const U32_MODULUS: int := 0x1_0000_0000

  type u16 = x: int | 0 <= x < U16_MODULUS
  type u32 = x: int | 0 <= x < U32_MODULUS

  /** `1 << bits` */
  function Pow2(bits: nat): (r: nat)
    ensures r >= 1
    ensures bits > 0 ==> r % 2 == 0
  {
    if bits == 0 then 1 else 2 * Pow2(bits - 1)
  }

  /** The implicit conversion of a C `int` to a `u16` parameter: the value
      modulo 2^16, so -1 arrives as 65535. */
  function ToU16(x: int): (r: u16)
    ensures 0 <= x < U16_MODULUS ==> r == x
    ensures x < 0 && -U16_MODULUS <= x ==> r == x + U16_MODULUS
  {
    x % U16_MODULUS
  }

  /** The kernel's inc_nlink on the unsigned 32-bit link count. */
  function IncNlink(n: u32): (r: u32)
    ensures n + 1 < U32_MODULUS ==> r == n + 1
    ensures n == U32_MODULUS - 1 ==> r == 0
  {
    (n + 1) % U32_MODULUS
  }

  /** The kernel's drop_nlink: an unsigned decrement, which wraps to the
      largest value when the count is already zero. */
  function DropNlink(n: u32): (r: u32)
    ensures n > 0 ==> r == n - 1
    ensures n == 0 ==> r == U32_MODULUS - 1
  {
    (n - 1) % U32_MODULUS
  }

  /** A link count moved by `delta` in unsigned 32-bit arithmetic: the
      net effect of a series of inc_nlink and drop_nlink calls. */
  function AddNlink(n: u32, delta: int): (r: u32)
    ensures 0 <= n + delta < U32_MODULUS ==> r == n + delta
  {
    (n + delta) % U32_MODULUS
  }
}

=== FILE: media.dfy ===
/** The on-media directory-entry record (struct hk_dentry) and the logical
    position that identifies it inside a directory's entry blocks. */
module Media {
  import opened Kernel

  /** A dentry slot: logical block `blk` of the directory (resolved to a
      physical block through linix) and index `ix` inside that block. */
  datatype Loc = Loc(blk: nat, ix: nat)

  /** The fields of struct hk_dentry that the directory code writes.
      `name` holds the first `nameLen` bytes; the NUL written after them is
      implicit in the Name type. `linksCount` is the u16 link-count delta,
      `tstamp` the version stamp from get_version. */
  datatype Dentry = Dentry(
    ino: Ino,
    nameLen: nat,
    name: Name,
    linksCount: u16,
    valid: bool,
    tstamp: nat)
}

=== FILE: namei.dfy ===
/** The link-count and validity logic of the directory operations in
    namei.c: hk_link, hk_unlink, hk_rename, __hk_create and hk_mkdir,
    with the valid-bit writes of hk_start_tx_for_new_inode and
    hk_start_tx_for_unlink.

    The transaction engine is opaque: hk_start_tx's result is a parameter
    (`tx`, negative on failure), and hk_commit_linkchange, which the code
    checks for an error, is taken to succeed. Each operation returns its
    status and the file system afterwards; on an error path the state
    reached before the error is kept, as the code does not roll back. */
module Namei {
  import opened Kernel
  import opened Media
  import DirTable
  import DentryLog

  /** The fields of an inode these operations read or write: i_nlink, the
      persistent inode's valid bit, and S_ISDIR(i_mode). */
  datatype Inode = Inode(nlink: u32, valid: bool, isDir: bool)

  /** Every directory's dentry log and every inode, by inode number. */
  datatype Fs = Fs(dirs: map<Ino, DentryLog.Dir>, inodes: map<Ino, Inode>)

  /** BKDRHash and HK_HASH_BITS, the dentry geometry, and HK_LINK_MAX. */
  datatype Config = Config(h: DirTable.Hashing, g: DentryLog.Geometry, linkMax: nat)

  datatype Step = Step(err: int, fs: Fs)

  /** RENAME_NOREPLACE from the VFS. */
  const RENAME_NOREPLACE: bv32 := 1

  /** Every directory's table points only at existing records. */
  predicate Indexed(c: Config, fs: Fs)
  {
    forall i | i in fs.dirs :: DirTable.Indexable(c.h, fs.dirs[i].table, fs.dirs[i].store)
  }

  /** Every directory satisfies the dentry-log invariant (which implies
      Indexed; it is spelled out so that contracts can rely on it). */
  ghost predicate WF(c: Config, fs: Fs)
  {
    && DentryLog.GeometryOk(c.g)
    && Indexed(c, fs)
    && forall i | i in fs.dirs :: DentryLog.WF(c.h, c.g, fs.dirs[i])
  }

  /** hk_add_dentry on directory `dir` of the file system. */
  function AddEntry(c: Config, fs: Fs, dir: Ino, name: Name, ino: Ino, linkChange: u16, a: DentryLog.Alloc): (r: Step)
    requires DentryLog.GeometryOk(c.g) && Indexed(c, fs) && dir in fs.dirs
    ensures Indexed(c, r.fs)
    ensures r.err == DentryLog.AddDentry(c.h, c.g, fs.dirs[dir], name, ino, linkChange, a).err
    ensures r.fs == fs.(dirs := fs.dirs[dir := DentryLog.AddDentry(c.h, c.g, fs.dirs[dir], name, ino, linkChange, a).dir])
    ensures r.err != 0 ==> r.fs == fs
  {
    var d := fs.dirs[dir];
    var out := DentryLog.AddDentry(c.h, c.g, d, name, ino, linkChange, a);
    assert out.err != 0 ==> fs.dirs[dir := out.dir] == fs.dirs;
    Step(out.err, fs.(dirs := fs.dirs[dir := out.dir]))
  }

  /** The status an operation returns once its dentries are written: the
      transaction's error if it failed to start, otherwise 0. */
  function TxStatus(tx: int): (err: int)
    ensures err <= 0
    ensures err == 0 <==> tx >= 0
  {
    if tx < 0 then tx else 0
  }

  // ---------------------------------------------------------------------
  // hk_link
  // ---------------------------------------------------------------------

  /** hk_link: refuse with -EMLINK at HK_LINK_MAX; otherwise add a dentry
      for the target in `dir`, increment its nlink and set its valid bit
      (hk_start_tx_for_new_inode). */
  function Link(c: Config, fs: Fs, dir: Ino, name: Name, target: Ino, a: DentryLog.Alloc, tx: int): (r: Step)
    requires DentryLog.GeometryOk(c.g) && Indexed(c, fs)
    requires dir in fs.dirs && target in fs.inodes
    ensures Indexed(c, r.fs)
    ensures fs.inodes[target].nlink >= c.linkMax ==> r == Step(-EMLINK, fs)
    ensures fs.inodes[target].nlink < c.linkMax ==>
              var add := DentryLog.AddDentry(c.h, c.g, fs.dirs[dir], name, target, 0, a);
              && (add.err != 0 ==> r == Step(add.err, fs))
              && (add.err == 0 ==>
                    && r.err == TxStatus(tx)
                    && target in r.fs.inodes
                    && r.fs.inodes[target] == fs.inodes[target].(nlink := IncNlink(fs.inodes[target].nlink), valid := true)
                    && (forall i | i in fs.inodes && i != target :: i in r.fs.inodes && r.fs.inodes[i] == fs.inodes[i])
                    && r.fs.dirs == fs.dirs[dir := add.dir])
    ensures |name| == 0 && fs.inodes[target].nlink < c.linkMax ==> r == Step(-EINVAL, fs)
  {
    var ind := fs.inodes[target];
    if ind.nlink >= c.linkMax then Step(-EMLINK, fs)
    else
      var add := AddEntry(c, fs, dir, name, target, 0, a);
      if add.err != 0 then add
      else
        var linked := ind.(nlink := IncNlink(ind.nlink), valid := true);
        Step(TxStatus(tx), add.fs.(inodes := add.fs.inodes[target := linked]))
  }

  // ---------------------------------------------------------------------
  // hk_unlink
  // ---------------------------------------------------------------------

  /** hk_unlink: remove `name` from `dir` (ino 0: its record is
      invalidated in place and no record is appended); the inode is
      invalidated exactly when it had one link, and its nlink drops by one
      unless it is already 0. */
  function Unlink(c: Config, fs: Fs, dir: Ino, name: Name, victim: Ino, a: DentryLog.Alloc, tx: int): (r: Step)
    requires DentryLog.GeometryOk(c.g) && Indexed(c, fs)
    requires dir in fs.dirs && victim in fs.inodes
    ensures Indexed(c, r.fs)
    ensures DentryLog.AddDentry(c.h, c.g, fs.dirs[dir], name, 0, 0, a).err != 0 ==>
              r == Step(DentryLog.AddDentry(c.h, c.g, fs.dirs[dir], name, 0, 0, a).err, fs)
    ensures DentryLog.AddDentry(c.h, c.g, fs.dirs[dir], name, 0, 0, a).err == 0 ==>
              && r.err == TxStatus(tx)
              && victim in r.fs.inodes
              && r.fs.inodes[victim].nlink as int == (if fs.inodes[victim].nlink == 0 then 0 else fs.inodes[victim].nlink - 1)
              && (r.fs.inodes[victim].valid <==> fs.inodes[victim].valid && fs.inodes[victim].nlink != 1)
              && r.fs.inodes[victim].isDir == fs.inodes[victim].isDir
              && (forall i | i in fs.inodes && i != victim :: i in r.fs.inodes && r.fs.inodes[i] == fs.inodes[i])
              && r.fs.dirs == fs.dirs[dir := DentryLog.AddDentry(c.h, c.g, fs.dirs[dir], name, 0, 0, a).dir]
  {
    var add := AddEntry(c, fs, dir, name, 0, 0, a);
    if add.err != 0 then add
    else
      var ind := fs.inodes[victim];
      var invalidate := ind.nlink == 1;
      var nlink := if ind.nlink != 0 then DropNlink(ind.nlink) else ind.nlink;
      var valid := if invalidate then false else ind.valid;
      Step(TxStatus(tx), add.fs.(inodes := add.fs.inodes[victim := ind.(nlink := nlink, valid := valid)]))
  }

  /** A link followed by the unlink of the new name gives the inode back
      its link count, and the name its absence. */
  lemma LinkThenUnlink(c: Config, fs: Fs, dir: Ino, name: Name, target: Ino, a1: DentryLog.Alloc, a2: DentryLog.Alloc, tx1: int, tx2: int)
    requires WF(c, fs) && dir in fs.dirs && target in fs.inodes && target != 0
    requires DirTable.Search(c.h, fs.dirs[dir].table, fs.dirs[dir].store, name).None?
    requires DentryLog.AllocSane(a1) && a1.infoOk && tx1 >= 0
    requires fs.inodes[target].nlink + 1 < U32_MODULUS
    requires Link(c, fs, dir, name, target, a1, tx1).err == 0
    ensures var l := Link(c, fs, dir, name, target, a1, tx1);
            var u := Unlink(c, l.fs, dir, name, target, a2, tx2);
            && u.err == TxStatus(tx2)
            && u.fs.inodes[target].nlink == fs.inodes[target].nlink
            && DentryLog.InodeByName(c.h, u.fs.dirs[dir], name).ino == -1
  {
    var d := fs.dirs[dir];
    var l := Link(c, fs, dir, name, target, a1, tx1);
    var d1 := l.fs.dirs[dir];
    DentryLog.AppendKeepsWF(c.h, c.g, d, name, target, 0, a1);
    DentryLog.AppendThenLookup(c.h, c.g, d, name, target, 0, a1);
    assert DirTable.Search(c.h, d1.table, d1.store, name).Some?;
    DentryLog.RemoveThenLookup(c.h, c.g, d1, name, 0, a2);
  }

  /** After a successful link the new name resolves to the target. */
  lemma LinkThenLookup(c: Config, fs: Fs, dir: Ino, name: Name, target: Ino, a: DentryLog.Alloc, tx: int)
    requires WF(c, fs) && dir in fs.dirs && target in fs.inodes && target != 0
    requires DirTable.Search(c.h, fs.dirs[dir].table, fs.dirs[dir].store, name).None?
    requires DentryLog.AllocSane(a) && a.infoOk
    requires Link(c, fs, dir, name, target, a, tx).err == 0
    ensures WF(c, Link(c, fs, dir, name, target, a, tx).fs)
    ensures DentryLog.InodeByName(c.h, Link(c, fs, dir, name, target, a, tx).fs.dirs[dir], name).ino == target
  {
    var d := fs.dirs[dir];
    DentryLog.AppendKeepsWF(c.h, c.g, d, name, target, 0, a);
    DentryLog.AppendThenLookup(c.h, c.g, d, name, target, 0, a);
  }

  // ---------------------------------------------------------------------
  // hk_rename
  // ---------------------------------------------------------------------

  /** The only flag hk_rename accepts is RENAME_NOREPLACE. */
  function FlagsOk(flags: bv32): (ok: bool)
    ensures ok <==> flags == 0 || flags == RENAME_NOREPLACE
  {
    flags & !RENAME_NOREPLACE == 0
  }

  /** (inc_link, dec_link) of hk_rename: the links_count of the new
      dentry, the argument passed with the old name's removal (which the
      removal never reads), and the parents' nlink adjustments. */
  function LinkDeltas(isDir: bool, hasTarget: bool, sameParent: bool): (r: (int, int))
    ensures !isDir ==> r == (0, 0)
    ensures isDir && !hasTarget && !sameParent ==> r == (1, -1)
    ensures isDir && hasTarget && !sameParent ==> r == (0, -1)
    ensures isDir && !hasTarget && sameParent ==> r == (0, 0)
    ensures isDir && hasTarget && sameParent ==> r == (-1, -1)
  {
    if !isDir then (0, 0)
    else
      var inc := if hasTarget then 0 else 1;
      if sameParent then
        (inc - 1, if inc - 1 == 0 then 0 else -1)
      else (inc, -1)
  }

  /** The change of the parents' link counts that directory semantics
      call for, independent of how hk_rename computes it: a moved
      directory's ".." leaves the old parent and arrives at the new one,
      and a replaced directory's ".." leaves the new parent. For a
      rename within one parent the two changes add up. */
  function ParentLinkChange(isDir: bool, hasTarget: bool): (r: (int, int))
    ensures !isDir ==> r == (0, 0)
    ensures isDir ==> r.1 == -1 && r.0 == (if hasTarget then 0 else 1)
  {
    if !isDir then (0, 0)
    else (1 - (if hasTarget then 1 else 0), -1)
  }

  /** The code's deltas realise the directory-semantics change: the new
      parent gains a link iff inc_link > 0, the old one loses a link iff
      dec_link < 0, and within one parent the net change is the sum. */
  lemma DeltasMatchParentLinks(isDir: bool, hasTarget: bool, sameParent: bool)
    ensures var (inc, dec) := LinkDeltas(isDir, hasTarget, sameParent);
            var (toNew, fromOld) := ParentLinkChange(isDir, hasTarget);
            && (!sameParent ==> (if inc > 0 then 1 else 0) == toNew && (if dec < 0 then -1 else 0) == fromOld)
            && (sameParent ==> (if inc > 0 then 1 else 0) + (if dec < 0 then -1 else 0) == toNew + fromOld)
  {
  }

  function SetNlink(fs: Fs, i: Ino, n: u32): Fs
    requires i in fs.inodes
  {
    fs.(inodes := fs.inodes[i := fs.inodes[i].(nlink := n)])
  }

  /** The replaced inode of a rename: nlink drops by two when a directory
      replaces it and by one otherwise, never below 0, and it is
      invalidated when no link is left. */
  function DropTarget(fs: Fs, t: Ino, srcIsDir: bool): (r: Fs)
    requires t in fs.inodes
    ensures r.dirs == fs.dirs
    ensures r.inodes.Keys == fs.inodes.Keys
    ensures forall i | i in fs.inodes && i != t :: r.inodes[i] == fs.inodes[i]
    ensures var drop := if srcIsDir then 2 else 1;
            r.inodes[t].nlink as int == (if fs.inodes[t].nlink < drop then 0 else fs.inodes[t].nlink - drop)
    ensures r.inodes[t].valid <==> fs.inodes[t].valid && r.inodes[t].nlink != 0
    ensures r.inodes[t].isDir == fs.inodes[t].isDir
  {
    var n0 := fs.inodes[t].nlink;
    var n1 := if srcIsDir && n0 != 0 then DropNlink(n0) else n0;
    var n2 := if n1 != 0 then DropNlink(n1) else n1;
    var invalidate := n2 == 0;
    fs.(inodes := fs.inodes[t := fs.inodes[t].(nlink := n2, valid := if invalidate then false else fs.inodes[t].valid)])
  }

  /** What the VFS guarantees hk_rename: the inodes named exist, and a
      directory source only ever replaces a directory. */
  predicate RenameArgs(c: Config, fs: Fs, oldDir: Ino, newDir: Ino, src: Ino, tgt: Option<Ino>)
  {
    && DentryLog.GeometryOk(c.g) && Indexed(c, fs)
    && oldDir in fs.dirs && newDir in fs.dirs
    && oldDir in fs.inodes && newDir in fs.inodes && src in fs.inodes
    && (tgt.Some? ==> tgt.value in fs.inodes)
    && (tgt.Some? && fs.inodes[src].isDir ==> tgt.value in fs.dirs)
  }

  /** Steps (a) and (b) of hk_rename: remove an existing target name from
      the new parent, link the source under the new name carrying
      inc_link, and increment the new parent's nlink when inc_link > 0. */
  function MoveIn(c: Config, fs: Fs, newDir: Ino, newName: Name, src: Ino, hasTarget: bool, inc: int,
                  a0: DentryLog.Alloc, a1: DentryLog.Alloc): (r: Step)
    requires DentryLog.GeometryOk(c.g) && Indexed(c, fs)
    requires newDir in fs.dirs && newDir in fs.inodes
    ensures Indexed(c, r.fs)
    ensures r.fs.inodes.Keys == fs.inodes.Keys && r.fs.dirs.Keys == fs.dirs.Keys
    ensures forall i | i in fs.dirs && i != newDir :: r.fs.dirs[i] == fs.dirs[i]
    ensures var d := fs.dirs[newDir];
            var rm := DentryLog.AddDentry(c.h, c.g, d, newName, 0, 0, a0);
            && (hasTarget && rm.err != 0 ==> r == Step(rm.err, fs))
            && (!hasTarget || rm.err == 0 ==>
                  var d1 := if hasTarget then rm.dir else d;
                  var ln := DentryLog.AddDentry(c.h, c.g, d1, newName, src, ToU16(inc), a1);
                  r.err == ln.err && r.fs.dirs[newDir] == ln.dir)
    ensures r.err == 0 ==>
              r.fs.inodes == if inc > 0 then fs.inodes[newDir := fs.inodes[newDir].(nlink := IncNlink(fs.inodes[newDir].nlink))]
                             else fs.inodes
  {
    var s0 := if hasTarget then AddEntry(c, fs, newDir, newName, 0, 0, a0) else Step(0, fs);
    if s0.err != 0 then s0
    else
      var s1 := AddEntry(c, s0.fs, newDir, newName, src, ToU16(inc), a1);
      if s1.err != 0 then s1
      else if inc > 0 then Step(0, SetNlink(s1.fs, newDir, IncNlink(s1.fs.inodes[newDir].nlink)))
      else s1
  }

  /** Step (c) of hk_rename and what follows it: invalidate the old
      name's record in place (the dec_link passed along is ignored, since a
      removal writes no record), drop the old parent's nlink when
      dec_link < 0, and take the links of the replaced inode. */
  function MoveOut(c: Config, fs: Fs, oldDir: Ino, oldName: Name, tgt: Option<Ino>, srcIsDir: bool, dec: int,
                   a2: DentryLog.Alloc, tx: int): (r: Step)
    requires DentryLog.GeometryOk(c.g) && Indexed(c, fs)
    requires oldDir in fs.dirs && oldDir in fs.inodes
    requires tgt.Some? ==> tgt.value in fs.inodes
    ensures Indexed(c, r.fs)
    ensures r.fs.inodes.Keys == fs.inodes.Keys && r.fs.dirs.Keys == fs.dirs.Keys
    ensures var s2 := DentryLog.AddDentry(c.h, c.g, fs.dirs[oldDir], oldName, 0, ToU16(dec), a2);
            && r.err == (if s2.err != 0 then s2.err else TxStatus(tx))
            && (s2.err != 0 ==> r.fs == fs)
    ensures DentryLog.AddDentry(c.h, c.g, fs.dirs[oldDir], oldName, 0, ToU16(dec), a2).err == 0 ==>
              forall i | i in fs.inodes && (tgt.None? || i != tgt.value) ::
                r.fs.inodes[i] == if i == oldDir && dec < 0 then fs.inodes[i].(nlink := DropNlink(fs.inodes[i].nlink))
                                  else fs.inodes[i]
    ensures r.fs.dirs == fs.dirs[oldDir := DentryLog.AddDentry(c.h, c.g, fs.dirs[oldDir], oldName, 0, ToU16(dec), a2).dir]
    ensures DentryLog.AddDentry(c.h, c.g, fs.dirs[oldDir], oldName, 0, ToU16(dec), a2).err == 0 && tgt.Some? && tgt.value != oldDir ==>
              var t := tgt.value;
              var drop := if srcIsDir then 2 else 1;
              && r.fs.inodes[t].nlink as int == (if fs.inodes[t].nlink < drop then 0 else fs.inodes[t].nlink - drop)
              && (r.fs.inodes[t].valid <==> fs.inodes[t].valid && r.fs.inodes[t].nlink != 0)
  {
    var s2 := AddEntry(c, fs, oldDir, oldName, 0, ToU16(dec), a2);
    if s2.err != 0 then s2
    else
      var fs2 := if dec < 0 then SetNlink(s2.fs, oldDir, DropNlink(s2.fs.inodes[oldDir].nlink)) else s2.fs;
      var fs3 := if tgt.Some? then DropTarget(fs2, tgt.value, srcIsDir) else fs2;
      Step(TxStatus(tx), fs3)
  }

  /** hk_rename. The guards refuse unknown flags (-EINVAL), a directory
      over a non-empty directory (-ENOTEMPTY), and a directory moved into
      a parent at HK_LINK_MAX (-EMLINK); then MoveIn and MoveOut run with
      the deltas of LinkDeltas. `a0`, `a1`, `a2` are the allocator
      outcomes of the three dentry appends. */
  function Rename(c: Config, fs: Fs, oldDir: Ino, oldName: Name, newDir: Ino, newName: Name,
                  src: Ino, tgt: Option<Ino>, flags: bv32,
                  a0: DentryLog.Alloc, a1: DentryLog.Alloc, a2: DentryLog.Alloc, tx: int): (r: Step)
    requires RenameArgs(c, fs, oldDir, newDir, src, tgt)
    ensures Indexed(c, r.fs)
    ensures !FlagsOk(flags) ==> r == Step(-EINVAL, fs)
    ensures FlagsOk(flags) && fs.inodes[src].isDir && tgt.Some? && !DirTable.NoEntries(fs.dirs[tgt.value].table) ==>
              r == Step(-ENOTEMPTY, fs)
    ensures FlagsOk(flags) && fs.inodes[src].isDir && tgt.None? && fs.inodes[newDir].nlink >= c.linkMax ==>
              r == Step(-EMLINK, fs)
    ensures r.fs.inodes.Keys == fs.inodes.Keys
    ensures r.fs.dirs.Keys == fs.dirs.Keys
  {
    var isDir := fs.inodes[src].isDir;
    if !FlagsOk(flags) then Step(-EINVAL, fs)
    else if tgt.Some? && isDir && !DirTable.NoEntries(fs.dirs[tgt.value].table) then Step(-ENOTEMPTY, fs)
    else if tgt.None? && isDir && fs.inodes[newDir].nlink >= c.linkMax then Step(-EMLINK, fs)
    else
      var (inc, dec) := LinkDeltas(isDir, tgt.Some?, oldDir == newDir);
      var s1 := MoveIn(c, fs, newDir, newName, src, tgt.Some?, inc, a0, a1);
      if s1.err != 0 then s1
      else MoveOut(c, s1.fs, oldDir, oldName, tgt, isDir, dec, a2, tx)
  }

  /** Replacing one directory by a well-formed one keeps the file system
      well formed. */
  lemma WFSetDir(c: Config, fs: Fs, dir: Ino, d: DentryLog.Dir)
    requires WF(c, fs) && dir in fs.dirs && DentryLog.WF(c.h, c.g, d)
    ensures WF(c, fs.(dirs := fs.dirs[dir := d]))
  {
    var fs' := fs.(dirs := fs.dirs[dir := d]);
    forall i | i in fs'.dirs
      ensures DirTable.Indexable(c.h, fs'.dirs[i].table, fs'.dirs[i].store)
      ensures DentryLog.WF(c.h, c.g, fs'.dirs[i])
    {
      if i != dir {
        assert fs'.dirs[i] == fs.dirs[i];
      }
    }
  }

  /** Removing a name (ino 0) keeps the file system well formed
      and leaves the name unresolvable. */
  lemma AddRemovalWF(c: Config, fs: Fs, dir: Ino, name: Name, linkChange: u16, a: DentryLog.Alloc)
    requires WF(c, fs) && dir in fs.dirs
    ensures var r := AddEntry(c, fs, dir, name, 0, linkChange, a);
            && WF(c, r.fs)
            && (|name| > 0 ==> DentryLog.InodeByName(c.h, r.fs.dirs[dir], name).ino == -1)
  {
    var d := fs.dirs[dir];
    DentryLog.RemoveThenLookup(c.h, c.g, d, name, linkChange, a);
    WFSetDir(c, fs, dir, DentryLog.AddDentry(c.h, c.g, d, name, 0, linkChange, a).dir);
  }

  /** Appending a link for a name that is not indexed keeps the file
      system well formed and, when the table node could be allocated,
      makes the name resolve to the linked inode. */
  lemma AddLinkWF(c: Config, fs: Fs, dir: Ino, name: Name, ino: Ino, linkChange: u16, a: DentryLog.Alloc)
    requires WF(c, fs) && dir in fs.dirs && ino != 0 && DentryLog.AllocSane(a)
    requires DirTable.Search(c.h, fs.dirs[dir].table, fs.dirs[dir].store, name).None?
    ensures var r := AddEntry(c, fs, dir, name, ino, linkChange, a);
            && WF(c, r.fs)
            && (r.err == 0 && a.infoOk ==> DentryLog.InodeByName(c.h, r.fs.dirs[dir], name).ino == ino)
  {
    var d := fs.dirs[dir];
    if |name| > 0 {
      DentryLog.AppendKeepsWF(c.h, c.g, d, name, ino, linkChange, a);
      if DentryLog.BlockFor(d, c.g, a).Some? && a.infoOk {
        DentryLog.AppendThenLookup(c.h, c.g, d, name, ino, linkChange, a);
      }
      WFSetDir(c, fs, dir, DentryLog.Append(c.h, c.g, d, name, ino, linkChange, a).dir);
    }
  }

  /** Steps (a) and (b) leave the new name resolving to the source and
      keep every directory well formed. */
  lemma MoveInLinks(c: Config, fs: Fs, newDir: Ino, newName: Name, src: Ino, hasTarget: bool, inc: int,
                    a0: DentryLog.Alloc, a1: DentryLog.Alloc)
    requires WF(c, fs) && newDir in fs.dirs && newDir in fs.inodes && src != 0
    requires DentryLog.AllocSane(a1) && a1.infoOk
    requires !hasTarget ==> DirTable.Search(c.h, fs.dirs[newDir].table, fs.dirs[newDir].store, newName).None?
    requires MoveIn(c, fs, newDir, newName, src, hasTarget, inc, a0, a1).err == 0
    ensures var r := MoveIn(c, fs, newDir, newName, src, hasTarget, inc, a0, a1);
            && WF(c, r.fs)
            && DentryLog.InodeByName(c.h, r.fs.dirs[newDir], newName).ino == src
            && forall i | i in fs.dirs && i != newDir :: r.fs.dirs[i] == fs.dirs[i]
  {
    var s0 := if hasTarget then AddEntry(c, fs, newDir, newName, 0, 0, a0) else Step(0, fs);
    if hasTarget {
      AddRemovalWF(c, fs, newDir, newName, 0, a0);
    }
    AddLinkWF(c, s0.fs, newDir, newName, src, ToU16(inc), a1);
    var s1 := AddEntry(c, s0.fs, newDir, newName, src, ToU16(inc), a1);
    var r := MoveIn(c, fs, newDir, newName, src, hasTarget, inc, a0, a1);
    assert r.fs.dirs == s1.fs.dirs;
    WFSameDirs(c, s1.fs, r.fs);
  }

  /** Well-formedness is a property of the directories alone. */
  lemma WFSameDirs(c: Config, fs: Fs, fs': Fs)
    requires WF(c, fs) && fs'.dirs == fs.dirs
    ensures WF(c, fs')
  {
  }

  /** Step (c) leaves the old name unresolvable and every directory well
      formed. */
  lemma MoveOutUnlinks(c: Config, fs: Fs, oldDir: Ino, oldName: Name, tgt: Option<Ino>, srcIsDir: bool, dec: int,
                       a2: DentryLog.Alloc, tx: int)
    requires WF(c, fs) && oldDir in fs.dirs && oldDir in fs.inodes
    requires tgt.Some? ==> tgt.value in fs.inodes
    requires MoveOut(c, fs, oldDir, oldName, tgt, srcIsDir, dec, a2, tx).err == 0
    ensures var r := MoveOut(c, fs, oldDir, oldName, tgt, srcIsDir, dec, a2, tx);
            && tx >= 0
            && WF(c, r.fs)
            && DentryLog.InodeByName(c.h, r.fs.dirs[oldDir], oldName).ino == -1
  {
    var d2 := DentryLog.AddDentry(c.h, c.g, fs.dirs[oldDir], oldName, 0, ToU16(dec), a2).dir;
    AddRemovalWF(c, fs, oldDir, oldName, ToU16(dec), a2);
    var r := MoveOut(c, fs, oldDir, oldName, tgt, srcIsDir, dec, a2, tx);
    assert r.fs.dirs == fs.dirs[oldDir := d2];
    WFSameDirs(c, fs.(dirs := fs.dirs[oldDir := d2]), r.fs);
  }

  /** Step (c) leaves every other name of the old parent resolving as it
      did. */
  lemma MoveOutKeepsOthers(c: Config, fs: Fs, oldDir: Ino, oldName: Name, tgt: Option<Ino>, srcIsDir: bool, dec: int,
                           a2: DentryLog.Alloc, tx: int)
    requires DentryLog.GeometryOk(c.g) && Indexed(c, fs) && oldDir in fs.dirs && oldDir in fs.inodes
    requires tgt.Some? ==> tgt.value in fs.inodes
    requires MoveOut(c, fs, oldDir, oldName, tgt, srcIsDir, dec, a2, tx).err == 0
    ensures var r := MoveOut(c, fs, oldDir, oldName, tgt, srcIsDir, dec, a2, tx);
            forall n: Name | n != oldName ::
              DentryLog.InodeByName(c.h, r.fs.dirs[oldDir], n) == DentryLog.InodeByName(c.h, fs.dirs[oldDir], n)
  {
    var d := fs.dirs[oldDir];
    var d2 := DentryLog.AddDentry(c.h, c.g, d, oldName, 0, ToU16(dec), a2).dir;
    forall n: Name | n != oldName
      ensures DentryLog.InodeByName(c.h, d2, n) == DentryLog.InodeByName(c.h, d, n)
    {
      DentryLog.RemoveKeepsOtherNames(c.h, c.g, d, oldName, n, ToU16(dec), a2);
    }
  }

  /** A successful rename passed its guards and ran both halves. */
  lemma RenameSucceeded(c: Config, fs: Fs, oldDir: Ino, oldName: Name, newDir: Ino, newName: Name,
                        src: Ino, tgt: Option<Ino>, flags: bv32,
                        a0: DentryLog.Alloc, a1: DentryLog.Alloc, a2: DentryLog.Alloc, tx: int)
    requires RenameArgs(c, fs, oldDir, newDir, src, tgt)
    requires Rename(c, fs, oldDir, oldName, newDir, newName, src, tgt, flags, a0, a1, a2, tx).err == 0
    ensures var (inc, dec) := LinkDeltas(fs.inodes[src].isDir, tgt.Some?, oldDir == newDir);
            var s1 := MoveIn(c, fs, newDir, newName, src, tgt.Some?, inc, a0, a1);
            && FlagsOk(flags)
            && s1.err == 0
            && Rename(c, fs, oldDir, oldName, newDir, newName, src, tgt, flags, a0, a1, a2, tx)
                 == MoveOut(c, s1.fs, oldDir, oldName, tgt, fs.inodes[src].isDir, dec, a2, tx)
  {
  }

  /** Past its three guards, hk_rename returns 0 exactly when the appends
      into the new parent succeed, the removal of the old name succeeds
      and the rename transaction starts. */
  lemma RenameStatus(c: Config, fs: Fs, oldDir: Ino, oldName: Name, newDir: Ino, newName: Name,
                     src: Ino, tgt: Option<Ino>, flags: bv32,
                     a0: DentryLog.Alloc, a1: DentryLog.Alloc, a2: DentryLog.Alloc, tx: int)
    requires RenameArgs(c, fs, oldDir, newDir, src, tgt) && FlagsOk(flags)
    requires !(fs.inodes[src].isDir && tgt.Some? && !DirTable.NoEntries(fs.dirs[tgt.value].table))
    requires !(fs.inodes[src].isDir && tgt.None? && fs.inodes[newDir].nlink >= c.linkMax)
    ensures var (inc, dec) := LinkDeltas(fs.inodes[src].isDir, tgt.Some?, oldDir == newDir);
            var s1 := MoveIn(c, fs, newDir, newName, src, tgt.Some?, inc, a0, a1);
            (Rename(c, fs, oldDir, oldName, newDir, newName, src, tgt, flags, a0, a1, a2, tx).err == 0 <==>
               && s1.err == 0
               && DentryLog.AddDentry(c.h, c.g, s1.fs.dirs[oldDir], oldName, 0, ToU16(dec), a2).err == 0
               && tx >= 0)
  {
  }

  /** A successful rename makes the new name resolve to the source inode
      and the old name resolve to nothing, and keeps every directory well
      formed. The VFS calls hk_rename only for a new name that is absent
      unless there is a target, and never with the same name in the same
      directory. */
  lemma RenameMovesName(c: Config, fs: Fs, oldDir: Ino, oldName: Name, newDir: Ino, newName: Name,
                        src: Ino, tgt: Option<Ino>, flags: bv32,
                        a0: DentryLog.Alloc, a1: DentryLog.Alloc, a2: DentryLog.Alloc, tx: int)
    requires WF(c, fs) && RenameArgs(c, fs, oldDir, newDir, src, tgt) && src != 0
    requires DentryLog.AllocSane(a1) && a1.infoOk
    requires tgt.None? ==> DirTable.Search(c.h, fs.dirs[newDir].table, fs.dirs[newDir].store, newName).None?
    requires oldDir == newDir ==> oldName != newName
    requires Rename(c, fs, oldDir, oldName, newDir, newName, src, tgt, flags, a0, a1, a2, tx).err == 0
    ensures var r := Rename(c, fs, oldDir, oldName, newDir, newName, src, tgt, flags, a0, a1, a2, tx);
            && WF(c, r.fs)
            && DentryLog.InodeByName(c.h, r.fs.dirs[newDir], newName).ino == src
            && DentryLog.InodeByName(c.h, r.fs.dirs[oldDir], oldName).ino == -1
  {
    RenameSucceeded(c, fs, oldDir, oldName, newDir, newName, src, tgt, flags, a0, a1, a2, tx);
    var isDir := fs.inodes[src].isDir;
    var (inc, dec) := LinkDeltas(isDir, tgt.Some?, oldDir == newDir);
    var s1 := MoveIn(c, fs, newDir, newName, src, tgt.Some?, inc, a0, a1);
    MoveInLinks(c, fs, newDir, newName, src, tgt.Some?, inc, a0, a1);
    MoveOutUnlinks(c, s1.fs, oldDir, oldName, tgt, isDir, dec, a2, tx);
    MoveOutKeepsOthers(c, s1.fs, oldDir, oldName, tgt, isDir, dec, a2, tx);
    var r := MoveOut(c, s1.fs, oldDir, oldName, tgt, isDir, dec, a2, tx);
    if oldDir != newDir {
      assert r.fs.dirs[newDir] == s1.fs.dirs[newDir];
    } else {
      assert newName != oldName;
    }
  }

  /** What a successful rename does to the parents' nlink, in the code's
      own terms: increment the new parent when inc_link > 0, then drop the
      old parent when dec_link < 0. */
  lemma RenameParentNlinks(c: Config, fs: Fs, oldDir: Ino, oldName: Name, newDir: Ino, newName: Name,
                           src: Ino, tgt: Option<Ino>, flags: bv32,
                           a0: DentryLog.Alloc, a1: DentryLog.Alloc, a2: DentryLog.Alloc, tx: int)
    requires RenameArgs(c, fs, oldDir, newDir, src, tgt)
    requires tgt.Some? ==> tgt.value != oldDir && tgt.value != newDir
    requires Rename(c, fs, oldDir, oldName, newDir, newName, src, tgt, flags, a0, a1, a2, tx).err == 0
    ensures var r := Rename(c, fs, oldDir, oldName, newDir, newName, src, tgt, flags, a0, a1, a2, tx);
            var (inc, dec) := LinkDeltas(fs.inodes[src].isDir, tgt.Some?, oldDir == newDir);
            var n1 := if inc > 0 then IncNlink(fs.inodes[newDir].nlink) else fs.inodes[newDir].nlink;
            && (oldDir != newDir ==>
                  && r.fs.inodes[newDir].nlink == n1
                  && r.fs.inodes[oldDir].nlink == if dec < 0 then DropNlink(fs.inodes[oldDir].nlink) else fs.inodes[oldDir].nlink)
            && (oldDir == newDir ==>
                  r.fs.inodes[newDir].nlink == if dec < 0 then DropNlink(n1) else n1)
    ensures var r := Rename(c, fs, oldDir, oldName, newDir, newName, src, tgt, flags, a0, a1, a2, tx);
            var (toNew, fromOld) := ParentLinkChange(fs.inodes[src].isDir, tgt.Some?);
            && (oldDir != newDir ==>
                  && r.fs.inodes[newDir].nlink == AddNlink(fs.inodes[newDir].nlink, toNew)
                  && r.fs.inodes[oldDir].nlink == AddNlink(fs.inodes[oldDir].nlink, fromOld))
            && (oldDir == newDir ==>
                  r.fs.inodes[newDir].nlink == AddNlink(fs.inodes[newDir].nlink, toNew + fromOld))
  {
    ParentNlinkArith(fs.inodes[src].isDir, tgt.Some?, oldDir == newDir, fs.inodes[newDir].nlink, fs.inodes[oldDir].nlink);
    RenameSucceeded(c, fs, oldDir, oldName, newDir, newName, src, tgt, flags, a0, a1, a2, tx);
    var isDir := fs.inodes[src].isDir;
    var (inc, dec) := LinkDeltas(isDir, tgt.Some?, oldDir == newDir);
    var s1 := MoveIn(c, fs, newDir, newName, src, tgt.Some?, inc, a0, a1);
    assert oldDir != newDir ==> s1.fs.inodes[oldDir] == fs.inodes[oldDir];
  }

  /** On success the parents' link counts change exactly as directory
      semantics require (modulo the 32-bit width of i_nlink), provided the
      target is neither of the parents. */
  lemma RenameParentLinks(c: Config, fs: Fs, oldDir: Ino, oldName: Name, newDir: Ino, newName: Name,
                          src: Ino, tgt: Option<Ino>, flags: bv32,
                          a0: DentryLog.Alloc, a1: DentryLog.Alloc, a2: DentryLog.Alloc, tx: int)
    requires RenameArgs(c, fs, oldDir, newDir, src, tgt)
    requires tgt.Some? ==> tgt.value != oldDir && tgt.value != newDir
    requires Rename(c, fs, oldDir, oldName, newDir, newName, src, tgt, flags, a0, a1, a2, tx).err == 0
    ensures var r := Rename(c, fs, oldDir, oldName, newDir, newName, src, tgt, flags, a0, a1, a2, tx);
            var (toNew, fromOld) := ParentLinkChange(fs.inodes[src].isDir, tgt.Some?);
            && (oldDir != newDir ==>
                  && r.fs.inodes[newDir].nlink == AddNlink(fs.inodes[newDir].nlink, toNew)
                  && r.fs.inodes[oldDir].nlink == AddNlink(fs.inodes[oldDir].nlink, fromOld))
            && (oldDir == newDir ==>
                  r.fs.inodes[newDir].nlink == AddNlink(fs.inodes[newDir].nlink, toNew + fromOld))
  {
    RenameParentNlinks(c, fs, oldDir, oldName, newDir, newName, src, tgt, flags, a0, a1, a2, tx);
  }

  /** The arithmetic step of RenameParentLinks: the code's increments and
      drops, with their 32-bit wrap, add up to the semantic change. */
  lemma ParentNlinkArith(isDir: bool, hasTarget: bool, sameParent: bool, nNew: u32, nOld: u32)
    ensures var (inc, dec) := LinkDeltas(isDir, hasTarget, sameParent);
            var (toNew, fromOld) := ParentLinkChange(isDir, hasTarget);
            var n1 := if inc > 0 then IncNlink(nNew) else nNew;
            && (!sameParent ==>
                  && n1 == AddNlink(nNew, toNew)
                  && (if dec < 0 then DropNlink(nOld) else nOld) == AddNlink(nOld, fromOld))
            && (sameParent ==>
                  (if dec < 0 then DropNlink(n1) else n1) == AddNlink(nNew, toNew + fromOld))
  {
    DeltasMatchParentLinks(isDir, hasTarget, sameParent);
  }

  /** On success the replaced inode loses two links when a directory
      replaces it and one otherwise, never going below 0, and is
      invalidated exactly when it has no link left. */
  lemma RenameDropsTarget(c: Config, fs: Fs, oldDir: Ino, oldName: Name, newDir: Ino, newName: Name,
                          src: Ino, t: Ino, flags: bv32,
                          a0: DentryLog.Alloc, a1: DentryLog.Alloc, a2: DentryLog.Alloc, tx: int)
    requires RenameArgs(c, fs, oldDir, newDir, src, Some(t))
    requires t != oldDir && t != newDir
    requires Rename(c, fs, oldDir, oldName, newDir, newName, src, Some(t), flags, a0, a1, a2, tx).err == 0
    ensures var r := Rename(c, fs, oldDir, oldName, newDir, newName, src, Some(t), flags, a0, a1, a2, tx);
            var drop := if fs.inodes[src].isDir then 2 else 1;
            && r.fs.inodes[t].nlink as int == (if fs.inodes[t].nlink < drop then 0 else fs.inodes[t].nlink - drop)
            && (r.fs.inodes[t].valid <==> fs.inodes[t].valid && r.fs.inodes[t].nlink != 0)
  {
    RenameSucceeded(c, fs, oldDir, oldName, newDir, newName, src, Some(t), flags, a0, a1, a2, tx);
    var isDir := fs.inodes[src].isDir;
    var (inc, dec) := LinkDeltas(isDir, true, oldDir == newDir);
    var s1 := MoveIn(c, fs, newDir, newName, src, true, inc, a0, a1);
    assert s1.fs.inodes[t] == fs.inodes[t];
  }

  // ---------------------------------------------------------------------
  // __hk_create and hk_mkdir
  // ---------------------------------------------------------------------

  /** The inode made by hk_create_inode and hk_init_pi (code not part of
      this model): `made` is 0 on success or the negative errno of the
      error pointer, `inode` the fields of the new inode. */
  datatype NewInode = NewInode(made: int, inode: Inode)

  /** A new directory starts with no entries, no slots and no blocks. */
  function EmptyDir(c: Config): (d: DentryLog.Dir)
    ensures DirTable.Shaped(c.h, d.table) && DirTable.NoEntries(d.table)
    ensures d.numDentrys == 0 && d.store == map[]
  {
    var t := DirTable.Empty(c.h);
    DirTable.CountZeroIffAllEmpty(t);
    DentryLog.Dir(t, 0, map[], map[])
  }

  /** The inode is in place: hk_start_tx_for_new_inode sets its valid
      bit, and a new directory gets its (empty) dentry log. */
  function Instantiate(c: Config, fs: Fs, ino: Ino, inode: Inode): (r: Fs)
    requires Indexed(c, fs)
    ensures Indexed(c, r)
    ensures ino in r.inodes && r.inodes[ino] == inode.(valid := true)
    ensures forall i | i in fs.inodes && i != ino :: i in r.inodes && r.inodes[i] == fs.inodes[i]
    ensures forall i | i in fs.dirs && i != ino :: i in r.dirs && r.dirs[i] == fs.dirs[i]
  {
    var dirs := if inode.isDir then fs.dirs[ino := EmptyDir(c)] else fs.dirs;
    Fs(dirs, fs.inodes[ino := inode.(valid := true)])
  }

  /** __hk_create as written. `ino` is hk_alloc_ino's result (None is -1).
      `err` starts as PTR_ERR(NULL), which is 0, so a failed inode-number
      allocation returns 0; a failed hk_create_inode jumps to the error
      exit with `err` still holding hk_add_dentry's 0. */
  function CreateAsWritten(c: Config, fs: Fs, dir: Ino, name: Name, ino: Option<Ino>, a: DentryLog.Alloc, n: NewInode, tx: int): (r: Step)
    requires DentryLog.GeometryOk(c.g) && Indexed(c, fs) && dir in fs.dirs
    ensures Indexed(c, r.fs)
    ensures ino.None? ==> r == Step(0, fs)
    ensures ino.Some? && n.made < 0 ==> r.err == AddEntry(c, fs, dir, name, ino.value, 0, a).err
  {
    match ino
    case None => Step(0, fs)
    case Some(i) =>
      var add := AddEntry(c, fs, dir, name, i, 0, a);
      if add.err != 0 then add
      else if n.made < 0 then Step(0, add.fs)
      else Step(TxStatus(tx), Instantiate(c, add.fs, i, n.inode))
  }

  /** __hk_create as evidently intended: running out of inode numbers is
      reported as -ENOSPC and a failed hk_create_inode as its own error. */
  function Create(c: Config, fs: Fs, dir: Ino, name: Name, ino: Option<Ino>, a: DentryLog.Alloc, n: NewInode, tx: int): (r: Step)
    requires DentryLog.GeometryOk(c.g) && Indexed(c, fs) && dir in fs.dirs
    ensures Indexed(c, r.fs)
    ensures ino.None? ==> r == Step(-ENOSPC, fs)
    ensures ino.Some? && AddEntry(c, fs, dir, name, ino.value, 0, a).err == 0 && n.made < 0 ==> r.err == n.made
    ensures r.err == 0 ==> ino.Some? && n.made >= 0 && tx >= 0
  {
    match ino
    case None => Step(-ENOSPC, fs)
    case Some(i) =>
      var add := AddEntry(c, fs, dir, name, i, 0, a);
      if add.err != 0 then add
      else if n.made < 0 then Step(n.made, add.fs)
      else Step(TxStatus(tx), Instantiate(c, add.fs, i, n.inode))
  }

  /** hk_mkdir as written: the parent's nlink is incremented whatever
      __hk_create returned. */
  function MkdirAsWritten(c: Config, fs: Fs, dir: Ino, name: Name, ino: Option<Ino>, a: DentryLog.Alloc, n: NewInode, tx: int): (r: Step)
    requires DentryLog.GeometryOk(c.g) && Indexed(c, fs) && dir in fs.dirs && dir in fs.inodes
    ensures Indexed(c, r.fs)
    ensures r.err == CreateAsWritten(c, fs, dir, name, ino, a, n.(inode := n.inode.(isDir := true)), tx).err
    ensures ino.None? || ino.value != dir ==>
              dir in r.fs.inodes && r.fs.inodes[dir] == fs.inodes[dir].(nlink := IncNlink(fs.inodes[dir].nlink))
    ensures forall i | i in fs.inodes && i != dir && (ino.None? || i != ino.value) :: i in r.fs.inodes && r.fs.inodes[i] == fs.inodes[i]
  {
    var cr := CreateAsWritten(c, fs, dir, name, ino, a, n.(inode := n.inode.(isDir := true)), tx);
    if dir in cr.fs.inodes then Step(cr.err, SetNlink(cr.fs, dir, IncNlink(cr.fs.inodes[dir].nlink)))
    else cr
  }

  /** hk_mkdir as evidently intended: the parent gains the new
      directory's ".." link only when the directory was created. */
  function Mkdir(c: Config, fs: Fs, dir: Ino, name: Name, ino: Option<Ino>, a: DentryLog.Alloc, n: NewInode, tx: int): (r: Step)
    requires DentryLog.GeometryOk(c.g) && Indexed(c, fs) && dir in fs.dirs && dir in fs.inodes
    ensures Indexed(c, r.fs)
    ensures r.err == Create(c, fs, dir, name, ino, a, n.(inode := n.inode.(isDir := true)), tx).err
    ensures r.err == 0 && ino.value != dir ==>
              && dir in r.fs.inodes && r.fs.inodes[dir] == fs.inodes[dir].(nlink := IncNlink(fs.inodes[dir].nlink))
              && ino.value in r.fs.inodes && r.fs.inodes[ino.value] == n.inode.(isDir := true, valid := true)
    ensures r.err != 0 && (ino.None? || ino.value != dir) ==> dir in r.fs.inodes && r.fs.inodes[dir] == fs.inodes[dir]
    ensures forall i | i in fs.inodes && i != dir && (ino.None? || i != ino.value) :: i in r.fs.inodes && r.fs.inodes[i] == fs.inodes[i]
  {
    var cr := Create(c, fs, dir, name, ino, a, n.(inode := n.inode.(isDir := true)), tx);
    if cr.err == 0 && dir in cr.fs.inodes then Step(0, SetNlink(cr.fs, dir, IncNlink(cr.fs.inodes[dir].nlink)))
    else cr
  }

  /** The defect of __hk_create: when no inode number is left it reports
      success although no entry was made, so the name still resolves to
      nothing. */
  lemma CreateAsWrittenHidesFailure(c: Config, fs: Fs, dir: Ino, name: Name, a: DentryLog.Alloc, n: NewInode, tx: int)
    requires DentryLog.GeometryOk(c.g) && Indexed(c, fs) && dir in fs.dirs
    requires DirTable.Search(c.h, fs.dirs[dir].table, fs.dirs[dir].store, name).None?
    ensures var r := CreateAsWritten(c, fs, dir, name, None, a, n, tx);
            r.err == 0 && DentryLog.InodeByName(c.h, r.fs.dirs[dir], name).ino == -1
  {
  }

  /** The corrected create reports success only when the name now
      resolves to the new inode and that inode is valid. */
  lemma CreateSuccessMeansEntry(c: Config, fs: Fs, dir: Ino, name: Name, ino: Option<Ino>, a: DentryLog.Alloc, n: NewInode, tx: int)
    requires WF(c, fs) && dir in fs.dirs
    requires DirTable.Search(c.h, fs.dirs[dir].table, fs.dirs[dir].store, name).None?
    requires DentryLog.AllocSane(a) && a.infoOk
    requires ino.Some? ==> ino.value != 0 && ino.value !in fs.dirs
    requires Create(c, fs, dir, name, ino, a, n, tx).err == 0
    ensures var r := Create(c, fs, dir, name, ino, a, n, tx);
            && dir in r.fs.dirs
            && DentryLog.InodeByName(c.h, r.fs.dirs[dir], name).ino == ino.value
            && ino.value in r.fs.inodes && r.fs.inodes[ino.value].valid
  {
    AddLinkWF(c, fs, dir, name, ino.value, 0, a);
    var add := AddEntry(c, fs, dir, name, ino.value, 0, a);
    assert add.fs.dirs.Keys == fs.dirs.Keys;
  }

  /** The defect of hk_mkdir: an empty name is refused with -EINVAL, yet
      the parent's link count goes up by one. */
  lemma MkdirAsWrittenCountsFailure(c: Config, fs: Fs, dir: Ino, ino: Ino, a: DentryLog.Alloc, n: NewInode, tx: int)
    requires DentryLog.GeometryOk(c.g) && Indexed(c, fs) && dir in fs.dirs && dir in fs.inodes
    ensures var r := MkdirAsWritten(c, fs, dir, [], Some(ino), a, n, tx);
            && r.err == -EINVAL
            && r.fs.inodes[dir].nlink == IncNlink(fs.inodes[dir].nlink) != fs.inodes[dir].nlink
  {
  }

  /** The same defect on a path the VFS can reach: the entry is added and
      the inode created, but the transaction does not start, so mkdir
      fails with its error and the parent's link count still goes up. */
  lemma MkdirAsWrittenCountsFailedTx(c: Config, fs: Fs, dir: Ino, name: Name, ino: Ino, a: DentryLog.Alloc, n: NewInode, tx: int)
    requires DentryLog.GeometryOk(c.g) && Indexed(c, fs) && dir in fs.dirs && dir in fs.inodes
    requires ino != dir && n.made >= 0 && tx < 0
    requires AddEntry(c, fs, dir, name, ino, 0, a).err == 0
    ensures var r := MkdirAsWritten(c, fs, dir, name, Some(ino), a, n, tx);
            && r.err == tx
            && r.fs.inodes[dir].nlink == IncNlink(fs.inodes[dir].nlink) != fs.inodes[dir].nlink
  {
  }

  /** The corrected mkdir moves the parent's link count by one exactly
      when it reports success, and leaves it alone otherwise. */
  lemma MkdirLinksParentOnSuccess(c: Config, fs: Fs, dir: Ino, name: Name, ino: Option<Ino>, a: DentryLog.Alloc, n: NewInode, tx: int)
    requires DentryLog.GeometryOk(c.g) && Indexed(c, fs) && dir in fs.dirs && dir in fs.inodes
    requires ino.Some? ==> ino.value != dir
    ensures var r := Mkdir(c, fs, dir, name, ino, a, n, tx);
            && dir in r.fs.inodes
            && (r.err == 0 <==> r.fs.inodes[dir].nlink == IncNlink(fs.inodes[dir].nlink))
            && (r.err != 0 ==> r.fs.inodes[dir] == fs.inodes[dir])
  {
    var n' := n.(inode := n.inode.(isDir := true));
    var cr := Create(c, fs, dir, name, ino, a, n', tx);
    assert dir in cr.fs.inodes && cr.fs.inodes[dir] == fs.inodes[dir];
  }
}
